=== FILE: README.md ===
# Scholar Guide: the record pages in Dafny

Scholar Guide is a student organiser with five record pages. Each page keeps one ordered list of records and changes it with add, delete and update actions:

- Schedule: dated entries shown on a month calendar.
- Grades: courses with a grade, credit hours and a grade point.
- To-dos: tasks with a completion flag.
- Expenses: amounts per category and date.
- Notes: sticky notes that can be dragged around a board.

This project models the logic of those five pages as pure Dafny functions over immutable datatypes. It then proves what the pages promise about that logic:

- what each add, delete and update does to the list, and what it leaves alone;
- the calendar arithmetic behind the month grid, and the day keys that tie entries to grid cells;
- the GPA and average bounds;
- the status views and counters of the to-do list;
- that the category totals add up to the overall total and list categories in first-seen order;
- that the newest-first expense sort is a stable permutation;
- that dragging keeps notes off negative coordinates.

Modules:

- `Optional`: the `Option` type.
- `Text`: JavaScript's `trim`, `String(n)`, `padStart`, and reading digits back.
- `Records`: filter, delete-by-id and update-by-id shared by all pages, plus what a page finds in storage.
- `Calendar`: Gregorian month lengths and weekdays, month navigation, `YYYY-MM-DD` keys, and the navigation as the page writes it.
- One module per page: `Schedule`, `Grades`, `Todos`, `Expenses`, `Notes`.

How the page inputs are modelled:

- **Values from the environment.** Values the pages take from the clock or the random generator are parameters: `Date.now()` ids and timestamps, and `Math.random()` draws in [0, 1).
- **Parsed numbers.** What `parseInt`/`parseFloat` read from a form field is also a parameter. The raw field text is passed beside it, because the pages test the text, not the number.
- **Numbers.** Amounts, grade points and positions are exact reals.
- **Expense dates.** An expense date is its day number, which is what the sort compares.
- **Stored lists.** A stored list is modelled by what the page finds: nothing, unreadable text, or a parsed list.

How the model reads the pages:

- **Storage.** Only the schedule and notes pages read storage at all.
- **Schedule fallback.** The schedule page falls back to its two seed entries, both when nothing is stored and when the stored text does not parse.
- **Notes fallback.** The notes page has no seed list. In both of those cases it starts empty (`Notes.Load`).
- **Other pages.** The grades, to-do and expenses pages always start from their seed lists.
- **Duplicate ids.** Ids are not checked for uniqueness. Delete removes every record with the given id, and update changes every such record.

## Model

| member | source | states |
|---|---|---|
| `Text.TrimStart` | app/todos/page.tsx:63 | the result is a suffix of the input; every removed character is ECMAScript whitespace; the first kept character is not |
| `Text.TrimEnd` | app/todos/page.tsx:63 | the result is a prefix of the input; every removed character is whitespace; the last kept character is not |
| `Text.Trim` | app/todos/page.tsx:63 | `trim()` keeps a contiguous stretch of the input, no longer than it, and is empty exactly when every character is whitespace |
| `Text.HasText` | app/expenses/page.tsx:68 | `title.trim()` is truthy exactly when the title has a non-whitespace character |
| `Text.IntToString` | app/schedule/page.tsx:97 | `${year}` of a non-negative year is a digit string reading back as the year; of a negative year, a minus sign followed by digits reading back as its magnitude |
| `Text.NatToString` | app/schedule/page.tsx:97 | `String(n)` is a non-empty digit string with no leading zero unless `n` is 0 |
| `Text.DigitsValueOfNatToString` | app/schedule/page.tsx:97 | reading the decimal form of `n` back gives `n` |
| `Text.NatToStringLength` | app/schedule/page.tsx:97 | `String(n)` has 1 digit below 10, 2 digits for 10..99, 4 for 1000..9999 |
| `Text.PadStart` | app/schedule/page.tsx:97 | `padStart` reaches the width (or keeps a longer string), keeps the original as the suffix and fills the front with the fill character |
| `Text.PadStart2Digits` | app/schedule/page.tsx:97 | for 0..99 the padded field is exactly two digits reading as the number |
| `Text.DigitChar` | app/schedule/page.tsx:97 | the digit character for 0..9 is a digit with that value |
| `Text.DigitValue` | app/schedule/page.tsx:97 | a digit's value is below 10 and maps back to the same character |
| `Records.Filter` | app/schedule/page.tsx:138-140 | `filter` keeps exactly the elements satisfying the test, no more of them than the input has, and keeps everything when everything passes |
| `Records.FilterAppend` | app/todos/page.tsx:102-106 | filtering distributes over concatenation, so kept records stay in list order |
| `Records.FilterCons` | app/schedule/page.tsx:222 | filtering a list with a known head keeps the head exactly when it passes |
| `Records.FilterSwap` | app/expenses/page.tsx:102-104 | two neighbours that are not both kept can swap without changing the filter |
| `Records.FilterComplement` | app/todos/page.tsx:108-109 | filtering by a test and by its negation splits the list: the two lengths add up to the whole |
| `Records.RemoveById` | app/todos/page.tsx:85-87 | delete-by-id keeps exactly the records with another id, shrinks the list by the number of matches, and changes nothing when the id is absent |
| `Records.RemoveByIdAppend` | app/todos/page.tsx:85-87 | delete-by-id distributes over concatenation, so survivors keep their order |
| `Records.MapById` | app/todos/page.tsx:77-83 | update-by-id keeps the length, changes exactly the records with the id and leaves every other record as it was; an absent id changes nothing |
| `Records.RemoveAppended` | app/todos/page.tsx:62-87 | deleting the fresh id of a just-appended record gives back the earlier list |
| `Calendar.DaysInMonth` | app/schedule/page.tsx:88-90 | the month table: April, June, September and November have 30 days, February has 29 exactly in leap years and 28 otherwise, and every other month has 31 |
| `Calendar.MonthLength` | app/schedule/page.tsx:88-90 | the displayed month has 30 days exactly when it is April, June, September or November, 29 exactly for February of a leap year, 28 exactly for February of another year, and 31 otherwise |
| `Calendar.Weekday` | app/schedule/page.tsx:92-94 | `getDay()` is in 0..6 |
| `Calendar.FirstWeekday` | app/schedule/page.tsx:92-94 | the first weekday of a month is in 0..6 |
| `Calendar.MakeMonth` | app/schedule/page.tsx:107-117 | `new Date(y, m)` with an out-of-range month lands on a valid month whose index is `12y + m` |
| `Calendar.PrevMonth` | app/schedule/page.tsx:107-111 | going back yields a valid month exactly one month earlier |
| `Calendar.NextMonth` | app/schedule/page.tsx:113-117 | going forward yields a valid month exactly one month later |
| `Calendar.IndexInjective` | app/schedule/page.tsx:107-117 | two valid months with the same month index are the same month |
| `Calendar.NavigationRollsOver` | app/schedule/page.tsx:107-117 | back from January is December of the year before; on from December is January of the year after; otherwise only the month moves |
| `Calendar.PrevNextInverse` | app/schedule/page.tsx:107-117 | previous and next undo each other |
| `Calendar.MonthsFillYear` | app/schedule/page.tsx:88-90 | the twelve month lengths add up to 365 or 366 days |
| `Calendar.LeapDayStep` | app/schedule/page.tsx:88-90 | a year adds one leap day to the day count exactly when it is a leap year |
| `Calendar.YearStep` | app/schedule/page.tsx:88-90 | consecutive New Year's Days are one year length apart |
| `Calendar.MonthLengthIsGap` | app/schedule/page.tsx:88-90 | "day 0 of the next month" is this month's last day: the next first-of-month is exactly `MonthLength` days later |
| `Calendar.NextFirstWeekday` | app/schedule/page.tsx:92-94 | the next month's grid starts on the weekday after this month's last day |
| `Calendar.InitialMonth` | app/schedule/page.tsx:25 | the page opens on January 2024, which starts on a Monday; February 2024 has 29 days and February 2023 has 28 |
| `Calendar.FormatDate` | app/schedule/page.tsx:96-98 | for a month and day below 100 the key ends in `-MM-DD` whose fields read back as the 1-based month and the day, and for a year from 0 on the digits in front read back as the year |
| `Calendar.FormatParseRoundTrip` | app/schedule/page.tsx:96-98 | for four-digit years, the key of a real day is a 10-character `full-date` that parses back to that day |
| `Calendar.ParseWellFormed` | app/schedule/page.tsx:96-98 | a well-laid-out key with in-range fields parses to the day its fields spell |
| `Calendar.FormatDateInjective` | app/schedule/page.tsx:196-202 | distinct days of four-digit years have distinct keys, so key equality is day equality |
| `Calendar.PrevMonthAsWritten` | app/schedule/page.tsx:107-111 | the written previous-month handler equals `PrevMonth` outside years 0..99, and lands exactly 1900 years after it inside them |
| `Calendar.NextMonthAsWritten` | app/schedule/page.tsx:113-117 | the written next-month handler equals `NextMonth` outside years 0..99, and lands exactly 1900 years after it inside them |
| `Calendar.MonthLengthAsWritten` | app/schedule/page.tsx:88-90 | the written `getDaysInMonth` is right for every month except February of year 0, which gets 28 days instead of 29 |
| `Calendar.FirstWeekdayAsWritten` | app/schedule/page.tsx:92-94 | the written `getFirstDayOfMonth` is a weekday 0..6 and is right outside years 0..99 |
| `Calendar.AsWrittenAgreesOutsideTwoDigitYears` | app/schedule/page.tsx:88-117 | the page's own navigation matches month arithmetic exactly when the year is outside 0..99; outside those years the grid length and first weekday match too |
| `Calendar.TwoDigitYearJump` | app/schedule/page.tsx:107-111 | as written, January of year 100 steps back to December of 99, and the next step back jumps to November 1999; December 99's grid starts on Wednesday (the weekday of 1 December 1999) instead of Tuesday, and stepping forward from it gives January 2000 |
| `Calendar.WrittenNavigationReach` | app/schedule/page.tsx:25-117 | from the opening month January 2024, the written handlers only ever show months of years from 100 on and December 99 |
| `Schedule.Load` | app/schedule/page.tsx:36-80 | a parsed stored list is used as is; otherwise the page starts with the two seed entries |
| `Schedule.AddSchedule` | app/schedule/page.tsx:119-132 | with a selected day and a non-empty title and time, exactly one entry for that day is appended; otherwise nothing changes |
| `Schedule.DeleteSchedule` | app/schedule/page.tsx:134-136 | exactly the entries with another id survive, and an absent id changes nothing |
| `Schedule.DeleteKeepsOrder` | app/schedule/page.tsx:134-136 | deletion distributes over concatenation, so surviving entries keep their order |
| `Schedule.DeleteUndoesAdd` | app/schedule/page.tsx:119-136 | deleting the fresh id of a just-added entry restores the list |
| `Schedule.SelectedDateSchedules` | app/schedule/page.tsx:138-140 | no selected day gives no entries; otherwise exactly the entries of that day |
| `Schedule.SelectionKeepsOrder` | app/schedule/page.tsx:138-140 | for a selected day the list is built entry by entry: an empty list gives nothing, one entry is listed exactly when it is on that day, and the list of a concatenation is the concatenation of the lists, so entries keep their order and repeats |
| `Schedule.MonthGrid` | app/schedule/page.tsx:186-227 | with the corrected month length and first weekday, the grid has one placeholder per weekday before day 1, followed by one cell per day 1..N, in order |
| `Schedule.MonthGridAsWritten` | app/schedule/page.tsx:88-94 | the grid the page draws, from the written `getFirstDayOfMonth` and `getDaysInMonth`: `firstDay` placeholders and then the day cells; equal to `MonthGrid` outside years 0..99 |
| `Schedule.DecemberNinetyNineGrid` | app/schedule/page.tsx:92-94 | for December 99 the page's grid has a third leading blank where the corrected grid already shows day 1 |
| `Schedule.Layout` | app/schedule/page.tsx:189-194 | `first` blank cells, then the cell of day `i - first + 1` at position `i` |
| `Schedule.DayCell` | app/schedule/page.tsx:194-224 | a cell shows a badge exactly when an entry has its key, and the badge is the number of such entries; the cell is drawn as selected exactly when its key is selected, and as busy exactly when it is not selected but has entries |
| `Schedule.SomeIffCount` | app/schedule/page.tsx:201-222 | `some` on the key agrees with a non-zero `filter(...).length` |
| `Schedule.DayKeysDistinct` | app/schedule/page.tsx:194-202 | in a month of a four-digit year two different days get different keys, so no entry is counted in two cells |
| `Grades.GradePoint` | app/grades/page.tsx:54-60 | the grade point lies in [0, 4] and is 4.0 exactly from 90, 3.7 exactly for 80..89, 3.3 exactly for 70..79, 3.0 exactly for 60..69 and 0.0 exactly below 60 |
| `Grades.GradePointMonotone` | app/grades/page.tsx:54-60 | a higher grade never earns fewer grade points |
| `Grades.GradePointEdges` | app/grades/page.tsx:54-60 | 89 earns 3.7 and 90 earns 4.0; 59 earns 0.0 and 60 earns 3.0 |
| `Grades.LetterGrade` | app/grades/page.tsx:71-77 | the letter is the letter of the grade point the scale gives the grade, so letters and grade points share their bands (a stored grade point, such as the seed course's 3.9, plays no part) |
| `Grades.LetterMatchesPoint` | app/grades/page.tsx:54-77 | the letter scale uses the same bands as the grade points: A exactly for 4.0 and F exactly for 0.0 |
| `Grades.Gpa` | app/grades/page.tsx:63-68 | the GPA is 0 for no courses or no positive credit total; otherwise GPA times total credits equals total weighted points |
| `Grades.TotalPointsBounds` | app/grades/page.tsx:65-66 | with grade points in [0, 4] and non-negative credits, the weighted points lie between 0 and 4 times the credits |
| `Grades.WeightedBound` | app/grades/page.tsx:65 | one course's weighted points lie between 0 and 4 times its credits |
| `Grades.GpaInRange` | app/grades/page.tsx:63-68 | for well-formed courses the GPA lies in [0, 4] |
| `Grades.GpaOfUniformPoints` | app/grades/page.tsx:63-68 | when every course has the same grade point and there are credits, the GPA is that grade point |
| `Grades.UniformPoints` | app/grades/page.tsx:65 | with one grade point for all courses, the weighted points are that point times the credits |
| `Grades.AverageGrade` | app/grades/page.tsx:161-163 | the average grade is 0 without courses; otherwise it times the course count equals the sum of grades |
| `Grades.TotalGradeBounds` | app/grades/page.tsx:162 | grades within [lo, hi] sum to between `lo * n` and `hi * n` |
| `Grades.AverageGradeInRange` | app/grades/page.tsx:161-163 | the average of grades within [lo, hi] lies in [lo, hi] |
| `Grades.AddCourse` | app/grades/page.tsx:80-97 | any empty input leaves the list alone; otherwise exactly one course is appended, whose grade point comes from the scale |
| `Grades.AddKeepsPointsFollowingGrades` | app/grades/page.tsx:23-97 | adding keeps every grade point equal to the scale's value for its grade; the seed list does not satisfy this (88 stored as 3.9) |
| `Grades.DeleteCourse` | app/grades/page.tsx:100-102 | exactly the courses with another id survive, and an absent id changes nothing |
| `Grades.DeleteCourseKeepsOrder` | app/grades/page.tsx:100-102 | deletion distributes over concatenation, so surviving courses keep their order |
| `Todos.AddTask` | app/todos/page.tsx:62-75 | a title of whitespace only changes nothing; otherwise one open task is appended with the title untrimmed |
| `Todos.ToggleTask` | app/todos/page.tsx:77-83 | only the `completed` flag of tasks with the id flips; every other field and task stays |
| `Todos.ToggleTwice` | app/todos/page.tsx:77-83 | toggling the same id twice restores the list |
| `Todos.DeleteTask` | app/todos/page.tsx:85-87 | exactly the tasks with another id survive, and an absent id changes nothing |
| `Todos.DeleteTaskKeepsOrder` | app/todos/page.tsx:85-87 | deletion distributes over concatenation, so surviving tasks keep their order |
| `Todos.DeleteUndoesAdd` | app/todos/page.tsx:62-87 | deleting the fresh id of a just-added task restores the list |
| `Todos.FilteredTasks` | app/todos/page.tsx:102-106 | "all" is the whole list; "active" holds exactly the open tasks and "completed" exactly the completed ones |
| `Todos.FilterViewsSplit` | app/todos/page.tsx:102-109 | the active and completed views split the list between them, and each keeps list order |
| `Todos.CompletedCount` | app/todos/page.tsx:108 | the completed count never exceeds the number of tasks |
| `Todos.Remaining` | app/todos/page.tsx:141 | "Remaining" (`total - completed`) lies in 0..total and equals the number of open tasks |
| `Expenses.Total` | app/expenses/page.tsx:93 | the total of non-negative amounts is non-negative |
| `Expenses.AddExpense` | app/expenses/page.tsx:67-87 | a blank title or an empty amount field changes nothing; otherwise exactly one expense is appended |
| `Expenses.DeleteExpense` | app/expenses/page.tsx:89-91 | exactly the expenses with another id survive, and an absent id changes nothing |
| `Expenses.DeleteExpenseKeepsOrder` | app/expenses/page.tsx:89-91 | deletion distributes over concatenation, so surviving expenses keep their order |
| `Expenses.AddRaisesTotal` | app/expenses/page.tsx:67-93 | an accepted add raises the total by the new amount; a rejected add leaves it alone |
| `Expenses.Bump` | app/expenses/page.tsx:96-97 | one `reduce` step adds the expense's category to the keys, sets its value to the old value (or 0) plus the amount, leaves every other value alone, keeps the key order when the category is already a key and appends it last otherwise (insertion order), and keeps each key listed once |
| `Expenses.Totals` | app/expenses/page.tsx:94-100 | the key order of `categoryTotals` lists every key of the object exactly once |
| `Expenses.TotalsKeys` | app/expenses/page.tsx:94-100 | `categoryTotals` has a key exactly for the categories that occur |
| `Expenses.TotalsKeysAndValues` | app/expenses/page.tsx:94-100 | keys are exactly the occurring categories, and each value is the amount spent on that category |
| `Expenses.SpentOnAbsent` | app/expenses/page.tsx:94-100 | nothing is spent on a category that does not occur |
| `Expenses.OccursSnoc` | app/expenses/page.tsx:94-100 | a category occurs after an append exactly when it occurred before or is the new expense's |
| `Expenses.SumOverUnlisted` | app/expenses/page.tsx:96 | changing an unlisted key changes no sum |
| `Expenses.SumOverRaise` | app/expenses/page.tsx:96 | raising a listed key's value raises the sum by as much |
| `Expenses.SumOverAppend` | app/expenses/page.tsx:96 | adding a new last key adds its value to the sum |
| `Expenses.BumpAddsAmount` | app/expenses/page.tsx:95-98 | one `reduce` step adds the expense's amount to the sum of the values |
| `Expenses.TotalsSumToTotal` | app/expenses/page.tsx:93-100 | the category totals add up to `totalExpenses` |
| `Expenses.FirstIndex` | app/expenses/page.tsx:94-100 | the position of a category's first expense: it has that category, none before it does, and it is the length exactly when the category does not occur |
| `Expenses.FirstIndexSnoc` | app/expenses/page.tsx:94-100 | appending moves no first position, and a new category first occurs at the end |
| `Expenses.TotalsFirstSeenOrder` | app/expenses/page.tsx:94-100 | the keys of `categoryTotals` come in the order their categories first occur in the list |
| `Expenses.InsertByDate` | app/expenses/page.tsx:102-104 | one insertion step adds exactly the inserted expense to the list's contents |
| `Expenses.ConsNewestFirst` | app/expenses/page.tsx:102-104 | putting an expense no older than the rest in front keeps the list newest first |
| `Expenses.InsertKeepsNewestFirst` | app/expenses/page.tsx:102-104 | inserting into a newest-first list keeps it newest first |
| `Expenses.SortByDate` | app/expenses/page.tsx:102-104 | `sortedExpenses` is a permutation of the list ordered newest first |
| `Expenses.InsertKeepsDayOrder` | app/expenses/page.tsx:102-104 | insertion keeps the expenses of each day in their previous relative order |
| `Expenses.SortKeepsDayOrder` | app/expenses/page.tsx:102-104 | the sort is stable: the expenses of each day keep their list order |
| `Notes.Load` | app/notes/page.tsx:30-40 | a parsed stored list is used as is; otherwise the board starts empty |
| `Notes.ColorIndex` | app/notes/page.tsx:21-27 | `Math.floor(Math.random() * colors.length)` is always a valid palette index |
| `Notes.AddNote` | app/notes/page.tsx:49-59 | exactly one empty note is appended, with a palette colour and both coordinates in [0, 300) |
| `Notes.DeleteNote` | app/notes/page.tsx:61-63 | exactly the notes with another id survive, and an absent id changes nothing |
| `Notes.DeleteNoteKeepsOrder` | app/notes/page.tsx:61-63 | deletion distributes over concatenation, so surviving notes keep their order |
| `Notes.UpdateNote` | app/notes/page.tsx:65-71 | only the text of the notes with the id changes; ids, colours, positions and timestamps stay |
| `Notes.MoveNote` | app/notes/page.tsx:73-79 | only the position of the notes with the id changes; nothing else does |
| `Notes.DragTarget` | app/notes/page.tsx:182-187 | the drag target is the pointer minus the offset on each axis when that is non-negative, and exactly 0 otherwise |
| `Notes.DragFollowsPointer` | app/notes/page.tsx:171-187 | a drag moves the note by exactly the pointer's travel, clamped at 0; a pointer back at its grab point puts an on-board note back where it was |
| `Notes.MouseDown` | app/notes/page.tsx:171-180 | a press on the text area or delete button changes nothing; any other press starts a drag whose offset puts the grab point at the pointer |
| `Notes.MouseMove` | app/notes/page.tsx:182-187 | outside a drag the board is unchanged; during one the dragged note goes to the clamped target and keeps its id, text, colour and creation time, and every other note stays |
| `Notes.DragSession` | app/notes/page.tsx:171-191 | in a press, move, release and later move on one note, the move puts it at its old position plus the pointer's travel, clamped at 0, with every other field and note unchanged, and after the release the later move changes nothing |
| `Notes.StaysOnBoard` | app/notes/page.tsx:49-59 | adding a note and dragging one both keep every note at non-negative coordinates |

## Left out

- Storage I/O, JSON parsing and the save effects are not modelled. A stored list is represented by what the page finds there (`Records.Stored`).
- Values from the environment are parameters: `Date.now()` (ids and timestamps), `Math.random()` (note colour and position) and `new Date()` (the default expense date).
- `parseInt`/`parseFloat` are not modelled. Their results are parameters, and a `NaN` result (for instance a grade field holding letters) is not represented.
- Expense dates are day numbers. Parsing the `YYYY-MM-DD` string with `new Date(...)`, and the sort order of unparseable dates, are not modelled.
- `Calendar.ParseFullDate` is the strict `full-date` form of section 5.6 of RFC 3339. JavaScript's `Date` parser accepts more than that.
- Floating point is not modelled. Amounts, grade points, averages and note positions are exact reals, and the `toFixed` display rounding is left out.
- Locale formatting is left out: the month name and the amount and date display.
- Display-only code is left out: the priority and category colour maps, form visibility, and component layout and styling.
- React state plumbing is not modelled. Each handler is modelled as a function from the old list to the new one.
- The map page, the dashboard, the sidebar, the middleware, the layout and the scripts are not part of this model.
- JavaScript's `Date` range is not modelled. A `Date` holds at most 8.64e15 ms either side of 1970, about years -271821 to 275760. Beyond that the page gets an invalid date, while `Calendar.YearMonth` has no year bound and `Calendar.PrevMonth`, `Calendar.NextMonth` and the as-written handlers keep counting.
- `Todos.CompletedCount`: states only the bound. Its exact value is given through `Todos.Remaining` and `Todos.FilterViewsSplit`.

## Findings

| source | as written | input that shows it | evidently intended | confidence | as-written member | corrected member |
|---|---|---|---|---|---|---|
| app/schedule/page.tsx:107-117 | `new Date(getFullYear(), getMonth() - 1)` rebuilds the displayed month from its year. JavaScript's `Date` constructor reads a year argument in 0..99 as 1900 + year. | Step back month by month to January of year 100, then press "previous" twice. The calendar shows December of year 99, but its grid starts on Wednesday, the weekday of 1 December 1999, instead of Tuesday. The next step back shows November 1999, and a step forward from December 99 shows January 2000. December 99 is the only month of years 0..99 the page can reach. | Step exactly one month back or forward in every year, and draw each month's grid from its own first weekday: `PrevNextInverse`, `NavigationRollsOver`, `MonthGrid`. | not executed; follows from the `Date` constructor's two-digit-year rule | `Calendar.PrevMonthAsWritten` (with `Calendar.TwoDigitYearJump`, `Calendar.WrittenNavigationReach`, `Calendar.AsWrittenAgreesOutsideTwoDigitYears`, and the drawn grid `Schedule.MonthGridAsWritten` with `Schedule.DecemberNinetyNineGrid`) | `Calendar.PrevMonth` (with `Calendar.PrevNextInverse`), and the grid `Schedule.MonthGrid` |

=== FILE: calendar.dfy ===
/** The calendar arithmetic behind the schedule page: month lengths under the
    Gregorian leap rule (the one Appendix C of RFC 3339 spells out), the
    weekday of the first of a month (0 = Sunday), month navigation with
    year roll-over, and the `YYYY-MM-DD` day keys (the `full-date` form of
    section 5.6 of RFC 3339). Months are 0-based, as `Date.getMonth` returns
    them. */
module Calendar {
  import Text
  import opened Optional

  /** Divisible by 4, and not by 100 unless also by 400. */
  predicate IsLeapYear(y: int) {
    y % 4 == 0 && (y % 100 != 0 || y % 400 == 0)
  }

  /** The number of days of month `m` (0 = January) in year `y`. */
  function DaysInMonth(y: int, m: int): (r: int)
    requires 0 <= m < 12
    ensures 28 <= r <= 31
    ensures m == 1 ==> (r == 29 <==> IsLeapYear(y)) && (r == 28 <==> !IsLeapYear(y))
    ensures r == 30 <==> m == 3 || m == 5 || m == 8 || m == 10
    ensures r == 31 <==> m != 1 && !(m == 3 || m == 5 || m == 8 || m == 10)
  {
    if m == 1 then (if IsLeapYear(y) then 29 else 28)
    else if m == 3 || m == 5 || m == 8 || m == 10 then 30
    else 31
  }

  function DaysInYear(y: int): int {
    if IsLeapYear(y) then 366 else 365
  }

  /** Days from 0001-01-01 (proleptic Gregorian) to January 1 of year `y`;
      negative for earlier years. `/` is floor division for positive
      divisors, so the leap-day count is right for every year. */
  function DaysBeforeYear(y: int): int {
    var p := y - 1;
    365 * p + p / 4 - p / 100 + p / 400
  }

  /** Days from January 1 to the first of month `m` of year `y`. */
  function DaysBeforeMonth(y: int, m: int): int
    requires 0 <= m <= 12
  {
    if m == 0 then 0 else DaysBeforeMonth(y, m - 1) + DaysInMonth(y, m - 1)
  }

  /** The day number of `y`-`m`-`d`, counted from 0001-01-01 = 0. A day
      outside the month counts on from its first, as `new Date(y, m, d)`
      normalises it. */
  function DayNumber(y: int, m: int, d: int): int
    requires 0 <= m < 12
  {
    DaysBeforeYear(y) + DaysBeforeMonth(y, m) + (d - 1)
  }

  /** `getDay()`: 0 = Sunday .. 6 = Saturday; 0001-01-01 was a Monday. */
  function Weekday(y: int, m: int, d: int): (r: int)
    requires 0 <= m < 12
    ensures 0 <= r < 7
  {
    (DayNumber(y, m, d) + 1) % 7
  }

  /** A displayed month: `getFullYear()` and the 0-based `getMonth()`. */
  datatype YearMonth = YearMonth(year: int, month: int) {
    predicate Valid() {
      0 <= month < 12
    }

    /** Months since January of year 0. */
    function Index(): int {
      year * 12 + month
    }
  }

  /** `getDaysInMonth`: `new Date(y, m + 1, 0).getDate()`. */
  function MonthLength(v: YearMonth): (r: int)
    requires v.Valid()
    ensures 28 <= r <= 31
    ensures r == 29 <==> v.month == 1 && IsLeapYear(v.year)
    ensures r == 28 <==> v.month == 1 && !IsLeapYear(v.year)
    ensures r == 30 <==> v.month == 3 || v.month == 5 || v.month == 8 || v.month == 10
    ensures r == 31 <==> v.month != 1 && !(v.month == 3 || v.month == 5 || v.month == 8 || v.month == 10)
  {
    DaysInMonth(v.year, v.month)
  }

  /** `getFirstDayOfMonth`: `new Date(y, m, 1).getDay()`. */
  function FirstWeekday(v: YearMonth): (r: int)
    requires v.Valid()
    ensures 0 <= r < 7
  {
    Weekday(v.year, v.month, 1)
  }

  /** The month `new Date(y, m)` lands in when `m` is outside 0..11: the
      excess whole years carry into the year. */
  function MakeMonth(y: int, m: int): (r: YearMonth)
    ensures r.Valid() && r.Index() == y * 12 + m
  {
    YearMonth(y + m / 12, m % 12)
  }

  /** The corrected `handlePrevMonth`: the month before `v`. */
  function PrevMonth(v: YearMonth): (r: YearMonth)
    requires v.Valid()
    ensures r.Valid() && r.Index() == v.Index() - 1
  {
    MakeMonth(v.year, v.month - 1)
  }

  /** The corrected `handleNextMonth`: the month after `v`. */
  function NextMonth(v: YearMonth): (r: YearMonth)
    requires v.Valid()
    ensures r.Valid() && r.Index() == v.Index() + 1
  {
    MakeMonth(v.year, v.month + 1)
  }

  /** A valid month is determined by its index. */
  lemma IndexInjective(a: YearMonth, b: YearMonth)
    requires a.Valid() && b.Valid() && a.Index() == b.Index()
    ensures a == b
  {
  }

  /** Stepping back from January lands in December of the previous year;
      stepping on from December lands in January of the next; inside a
      year only the month moves. */
  lemma {:induction false} NavigationRollsOver(y: int, m: int)
    requires 0 <= m < 12
    ensures PrevMonth(YearMonth(y, m)) == if m == 0 then YearMonth(y - 1, 11) else YearMonth(y, m - 1)
    ensures NextMonth(YearMonth(y, m)) == if m == 11 then YearMonth(y + 1, 0) else YearMonth(y, m + 1)
  {
    var v := YearMonth(y, m);
    IndexInjective(PrevMonth(v), if m == 0 then YearMonth(y - 1, 11) else YearMonth(y, m - 1));
    IndexInjective(NextMonth(v), if m == 11 then YearMonth(y + 1, 0) else YearMonth(y, m + 1));
  }

  /** Previous and next undo each other. */
  lemma {:induction false} PrevNextInverse(v: YearMonth)
    requires v.Valid()
    ensures NextMonth(PrevMonth(v)) == v
    ensures PrevMonth(NextMonth(v)) == v
  {
    IndexInjective(NextMonth(PrevMonth(v)), v);
    IndexInjective(PrevMonth(NextMonth(v)), v);
  }

  /** The twelve month lengths add up to the length of the year. */
  lemma {:induction false} MonthsFillYear(y: int)
    ensures DaysBeforeMonth(y, 12) == DaysInYear(y)
  {
    var feb := DaysInMonth(y, 1);
    assert DaysBeforeMonth(y, 1) == 31;
    assert DaysBeforeMonth(y, 2) == 31 + feb;
    assert DaysBeforeMonth(y, 3) == 62 + feb;
    assert DaysBeforeMonth(y, 4) == 92 + feb;
    assert DaysBeforeMonth(y, 5) == 123 + feb;
    assert DaysBeforeMonth(y, 6) == 153 + feb;
    assert DaysBeforeMonth(y, 7) == 184 + feb;
    assert DaysBeforeMonth(y, 8) == 215 + feb;
    assert DaysBeforeMonth(y, 9) == 245 + feb;
    assert DaysBeforeMonth(y, 10) == 276 + feb;
    assert DaysBeforeMonth(y, 11) == 306 + feb;
  }

  /** Floor division by `k` steps up by one exactly at multiples of `k`. */
  lemma FloorStep(a: int, k: int)
    requires k == 4 || k == 100 || k == 400
    ensures (a + 1) / k - a / k == if (a + 1) % k == 0 then 1 else 0
  {
  }

  /** A multiple of `k * j` is a multiple of `k`. */
  lemma MultipleOfFactor(y: int, k: int, j: int)
    requires 0 < k && 0 < j && y % (k * j) == 0
    ensures y % k == 0
  {
    var q := y / (k * j);
    assert y == (k * j) * q;
    Associate(k, j, q);
    ExactQuotient(y, k, j * q);
  }

  /** Multiplication of integers is associative. */
  lemma Associate(a: int, b: int, c: int)
    ensures (a * b) * c == a * (b * c)
  {
  }

  /** `k * m` divides exactly by `k`. */
  lemma ExactQuotient(y: int, k: int, m: int)
    requires 0 < k && y == k * m
    ensures y % k == 0
  {
    var t := m - y / k;
    assert y % k == k * t;
    if t >= 1 {
      assert k * t == k + k * (t - 1);
      NonNegativeIntProduct(k, t - 1);
    } else if t <= -1 {
      assert k * t == -k - k * (-t - 1);
      NonNegativeIntProduct(k, -t - 1);
    }
  }

  lemma NonNegativeIntProduct(a: int, b: int)
    requires 0 <= a && 0 <= b
    ensures 0 <= a * b
  {
  }

  /** Divisibility by 400 implies divisibility by 100, and that by 4. */
  lemma DivisorChain(y: int)
    ensures y % 400 == 0 ==> y % 100 == 0
    ensures y % 100 == 0 ==> y % 4 == 0
  {
    if y % 400 == 0 {
      MultipleOfFactor(y, 100, 4);
    }
    if y % 100 == 0 {
      MultipleOfFactor(y, 4, 25);
    }
  }

  /** Year `y` adds one leap day to the count in `DaysBeforeYear` exactly
      when it is a leap year. */
  lemma LeapDayStep(y: int)
    ensures (y / 4 - (y - 1) / 4) - (y / 100 - (y - 1) / 100) + (y / 400 - (y - 1) / 400)
      == DaysInYear(y) - 365
  {
    FloorStep(y - 1, 4);
    FloorStep(y - 1, 100);
    FloorStep(y - 1, 400);
    DivisorChain(y);
  }

  /** The leap-day count in `DaysBeforeYear` agrees with `IsLeapYear`. */
  lemma {:induction false} YearStep(y: int)
    ensures DaysBeforeYear(y + 1) == DaysBeforeYear(y) + DaysInYear(y)
  {
    LeapDayStep(y);
    assert 365 * y == 365 * (y - 1) + 365;
  }

  /** `getDaysInMonth` takes "day 0 of the next month" to be the last day of
      this one: the first of the next month falls exactly `MonthLength`
      days after the first of this one. */
  lemma {:induction false} MonthLengthIsGap(v: YearMonth)
    requires v.Valid()
    ensures var n := NextMonth(v);
      DayNumber(n.year, n.month, 1) == DayNumber(v.year, v.month, 1) + MonthLength(v)
  {
    NavigationRollsOver(v.year, v.month);
    if v.month == 11 {
      YearStep(v.year);
      MonthsFillYear(v.year);
    }
  }

  /** Consecutive month grids line up: the next month starts on the weekday
      after this month's last day. */
  lemma {:induction false} NextFirstWeekday(v: YearMonth)
    requires v.Valid()
    ensures FirstWeekday(NextMonth(v)) == (FirstWeekday(v) + MonthLength(v)) % 7
  {
    MonthLengthIsGap(v);
    var n := NextMonth(v);
    var a := DayNumber(v.year, v.month, 1) + 1;
    assert DayNumber(n.year, n.month, 1) + 1 == a + MonthLength(v);
    ShiftMod7(a, MonthLength(v));
  }

  lemma ShiftMod7(a: int, k: int)
    ensures (a + k) % 7 == (a % 7 + k) % 7
  {
  }

  /** The page opens on January 2024, whose first day is a Monday; February
      2024 has 29 days and February 2023 has 28. */
  lemma InitialMonth()
    ensures FirstWeekday(YearMonth(2024, 0)) == 1
    ensures MonthLength(YearMonth(2024, 1)) == 29
    ensures MonthLength(YearMonth(2023, 1)) == 28
  {
  }

  /** `formatDateString(year, month, day)`: `String(year)`, then the 1-based
      month and the day, each padded with '0' to two characters. For a
      month and day below 100 the key ends in `-MM-DD`, whose fields read
      back as the 1-based month and the day, and a year from 0 on is the
      digit string in front of them. */
  function FormatDate(y: int, m: int, d: int): (r: string)
    ensures 0 <= m + 1 < 100 && 0 <= d < 100 ==> ReadsBack(r, y, m, d)
  {
    KeyFields(y, m, d);
    Key(Text.IntToString(y), Text.PadStart(Text.IntToString(m + 1), 2, '0'),
        Text.PadStart(Text.IntToString(d), 2, '0'))
  }

  /** `r` ends in `-MM-DD` with fields reading as the 1-based month `m + 1`
      and the day `d`, and for a year from 0 on the digits in front read as
      the year `y`. */
  predicate ReadsBack(r: string, y: int, m: int, d: int) {
    |r| >= 7 && r[|r| - 6] == '-' && r[|r| - 3] == '-'
    && Text.AllDigits(r[|r| - 5..|r| - 3]) && Text.DigitsValue(r[|r| - 5..|r| - 3]) == m + 1
    && Text.AllDigits(r[|r| - 2..]) && Text.DigitsValue(r[|r| - 2..]) == d
    && (0 <= y ==> Text.AllDigits(r[..|r| - 6]) && Text.DigitsValue(r[..|r| - 6]) == y)
  }

  /** A key from its three fields. */
  function Key(ys: string, ms: string, ds: string): string {
    ys + "-" + ms + "-" + ds
  }

  /** The three fields of a key with a month and day below 100 read back. */
  lemma KeyFields(y: int, m: int, d: int)
    ensures 0 <= m + 1 < 100 && 0 <= d < 100 ==>
      ReadsBack(Key(Text.IntToString(y), Text.PadStart(Text.IntToString(m + 1), 2, '0'),
                    Text.PadStart(Text.IntToString(d), 2, '0')), y, m, d)
  {
    if 0 <= m + 1 < 100 && 0 <= d < 100 {
      var ys := Text.IntToString(y);
      var ms := Text.PadStart(Text.IntToString(m + 1), 2, '0');
      var ds := Text.PadStart(Text.IntToString(d), 2, '0');
      Text.PadStart2Digits(m + 1);
      Text.PadStart2Digits(d);
      KeyParts(ys, ms, ds);
    }
  }

  /** Where the three fields sit in a key with two-character month and day
      fields. */
  lemma KeyParts(ys: string, ms: string, ds: string)
    requires |ms| == 2 && |ds| == 2
    ensures var r := Key(ys, ms, ds);
      && |r| == |ys| + 6 && r[|r| - 6] == '-' && r[|r| - 3] == '-'
      && r[|r| - 5..|r| - 3] == ms && r[|r| - 2..] == ds && r[..|r| - 6] == ys
  {
  }

  datatype Date = Date(year: int, month: int, day: int)

  /** Reads a `full-date` (section 5.6 of RFC 3339): four year digits, a
      two-digit month 01..12 and a two-digit day within that month,
      separated by '-'. The month comes back 0-based. */
  function ParseFullDate(s: string): Option<Date> {
    if |s| == 10 && s[4] == '-' && s[7] == '-'
       && Text.AllDigits(s[..4]) && Text.AllDigits(s[5..7]) && Text.AllDigits(s[8..])
    then
      var y := Text.DigitsValue(s[..4]);
      var mo := Text.DigitsValue(s[5..7]);
      var d := Text.DigitsValue(s[8..]);
      if 1 <= mo <= 12 && 1 <= d <= DaysInMonth(y, mo - 1) then Some(Date(y, mo - 1, d)) else None
    else None
  }

  /** For four-digit years, the key of a real day is a `full-date` that
      reads back as that day. */
  lemma {:induction false} FormatParseRoundTrip(y: int, m: int, d: int)
    requires 1000 <= y <= 9999 && 0 <= m < 12 && 1 <= d <= DaysInMonth(y, m)
    ensures |FormatDate(y, m, d)| == 10
    ensures ParseFullDate(FormatDate(y, m, d)) == Some(Date(y, m, d))
  {
    var ys := Text.IntToString(y);
    var ms := Text.PadStart(Text.IntToString(m + 1), 2, '0');
    var ds := Text.PadStart(Text.IntToString(d), 2, '0');
    Text.NatToStringLength(y);
    Text.PadStart2Digits(m + 1);
    Text.PadStart2Digits(d);
    KeyParts(ys, ms, ds);
    var s := FormatDate(y, m, d);
    assert |s| == 10 && s[..4] == s[..|s| - 6] && s[5..7] == s[|s| - 5..|s| - 3] && s[8..] == s[|s| - 2..];
    ParseWellFormed(s);
  }

  /** A string laid out as a `full-date` whose fields are in range parses to
      the day its fields spell. */
  lemma ParseWellFormed(s: string)
    requires |s| == 10 && s[4] == '-' && s[7] == '-'
    requires Text.AllDigits(s[..4]) && Text.AllDigits(s[5..7]) && Text.AllDigits(s[8..])
    requires 1 <= Text.DigitsValue(s[5..7]) <= 12
    requires 1 <= Text.DigitsValue(s[8..]) <= DaysInMonth(Text.DigitsValue(s[..4]), Text.DigitsValue(s[5..7]) - 1)
    ensures ParseFullDate(s)
      == Some(Date(Text.DigitsValue(s[..4]), Text.DigitsValue(s[5..7]) - 1, Text.DigitsValue(s[8..])))
  {
  }

  /** Distinct days of four-digit years have distinct keys, so comparing
      keys compares days. */
  lemma FormatDateInjective(y1: int, m1: int, d1: int, y2: int, m2: int, d2: int)
    requires 1000 <= y1 <= 9999 && 0 <= m1 < 12 && 1 <= d1 <= DaysInMonth(y1, m1)
    requires 1000 <= y2 <= 9999 && 0 <= m2 < 12 && 1 <= d2 <= DaysInMonth(y2, m2)
    requires FormatDate(y1, m1, d1) == FormatDate(y2, m2, d2)
    ensures y1 == y2 && m1 == m2 && d1 == d2
  {
    FormatParseRoundTrip(y1, m1, d1);
    FormatParseRoundTrip(y2, m2, d2);
  }

  // ---------------------------------------------------------------------
  // Navigation as the page writes it. `new Date(year, month)` reads a year
  // in 0..99 as 1900 + year, and the page rebuilds its date from
  // `getFullYear()` on every step, so the arithmetic above holds for every
  // year except 0..99. The limited range of a JavaScript `Date` is not
  // modelled: these functions keep counting where the page would get an
  // invalid date.

  /** The year `new Date(y, ...)` uses for the year argument `y`. */
  function JsConstructorYear(y: int): int {
    if 0 <= y <= 99 then 1900 + y else y
  }

  /** `handlePrevMonth` as written: the month before `v`, moved
      1900 years on when `v` falls in years 0..99. */
  function PrevMonthAsWritten(v: YearMonth): (r: YearMonth)
    requires v.Valid()
    ensures r.Valid()
    ensures !(0 <= v.year <= 99) ==> r == PrevMonth(v)
    ensures 0 <= v.year <= 99 ==> r.Index() == PrevMonth(v).Index() + 1900 * 12
  {
    MakeMonth(JsConstructorYear(v.year), v.month - 1)
  }

  /** `handleNextMonth` as written: the month after `v`, moved 1900
      years on when `v` falls in years 0..99. */
  function NextMonthAsWritten(v: YearMonth): (r: YearMonth)
    requires v.Valid()
    ensures r.Valid()
    ensures !(0 <= v.year <= 99) ==> r == NextMonth(v)
    ensures 0 <= v.year <= 99 ==> r.Index() == NextMonth(v).Index() + 1900 * 12
  {
    MakeMonth(JsConstructorYear(v.year), v.month + 1)
  }

  /** `getDaysInMonth` as written. Since years 1..99 are leap years
      exactly when 1901..1999 are, only February of year 0 comes out wrong:
      it gets the 28 days of February 1900. */
  function MonthLengthAsWritten(v: YearMonth): (r: int)
    requires v.Valid()
    ensures v != YearMonth(0, 1) ==> r == MonthLength(v)
    ensures v == YearMonth(0, 1) ==> r == 28 && MonthLength(v) == 29
  {
    DaysInMonth(JsConstructorYear(v.year), v.month)
  }

  /** `getFirstDayOfMonth` as written: right outside years
      0..99. */
  function FirstWeekdayAsWritten(v: YearMonth): (r: int)
    requires v.Valid()
    ensures 0 <= r < 7
    ensures !(0 <= v.year <= 99) ==> r == FirstWeekday(v)
  {
    Weekday(JsConstructorYear(v.year), v.month, 1)
  }

  /** The written navigation agrees with the month arithmetic exactly when
      the displayed year is outside 0..99; outside those years the written
      grid also has the right length and starting weekday. */
  lemma {:induction false} AsWrittenAgreesOutsideTwoDigitYears(v: YearMonth)
    requires v.Valid()
    ensures PrevMonthAsWritten(v) == PrevMonth(v) <==> !(0 <= v.year <= 99)
    ensures NextMonthAsWritten(v) == NextMonth(v) <==> !(0 <= v.year <= 99)
    ensures !(0 <= v.year <= 99) ==>
      MonthLengthAsWritten(v) == MonthLength(v) && FirstWeekdayAsWritten(v) == FirstWeekday(v)
  {
    if 0 <= v.year <= 99 {
      assert PrevMonthAsWritten(v).Index() == PrevMonth(v).Index() + 1900 * 12;
      assert NextMonthAsWritten(v).Index() == NextMonth(v).Index() + 1900 * 12;
    }
  }

  /** Stepping back from January of year 100 reaches December of year 99,
      whose grid starts on the weekday of 1 December 1999 (a Wednesday)
      instead of 1 December 99 (a Tuesday); one more step jumps to November
      1999, and one step forward to January 2000. */
  lemma TwoDigitYearJump()
    ensures PrevMonthAsWritten(YearMonth(100, 0)) == YearMonth(99, 11)
    ensures FirstWeekdayAsWritten(YearMonth(99, 11)) == 3 && FirstWeekday(YearMonth(99, 11)) == 2
    ensures PrevMonthAsWritten(YearMonth(99, 11)) == YearMonth(1999, 10)
    ensures NextMonthAsWritten(YearMonth(99, 11)) == YearMonth(2000, 0)
    ensures PrevMonth(YearMonth(99, 11)) == YearMonth(99, 10)
  {
    DecemberFirstWeekdays();
    assert MakeMonth(100, -1) == YearMonth(99, 11);
    assert MakeMonth(1999, 10) == YearMonth(1999, 10);
    assert MakeMonth(1999, 12) == YearMonth(2000, 0);
    assert MakeMonth(99, 10) == YearMonth(99, 10);
  }

  /** 1 December 99 was a Tuesday and 1 December 1999 a Wednesday. */
  lemma DecemberFirstWeekdays()
    ensures Weekday(99, 11, 1) == 2 && Weekday(1999, 11, 1) == 3
  {
    assert DaysBeforeMonth(99, 11) == 334 && DaysBeforeMonth(1999, 11) == 334;
    assert DaysBeforeYear(99) == 35794 && DaysBeforeYear(1999) == 729754;
  }

  /** The months the page can show, starting from January 2024 and stepping
      with the written handlers: every year from 100 on, and December 99. */
  predicate ReachableAsWritten(v: YearMonth) {
    v.Valid() && (v.year >= 100 || v == YearMonth(99, 11))
  }

  /** The written handlers never leave the reachable months, so December 99
      is the only month of years 0..99 the page ever shows. */
  lemma WrittenNavigationReach(v: YearMonth)
    requires ReachableAsWritten(v)
    ensures ReachableAsWritten(YearMonth(2024, 0))
    ensures ReachableAsWritten(PrevMonthAsWritten(v))
    ensures ReachableAsWritten(NextMonthAsWritten(v))
  {
  }
}

=== FILE: expenses.dfy ===
/** The expenses page: expenses with an amount, a category and a date;
    adding and deleting, the total, the per-category totals (in the order the
    categories first occur, as a JavaScript object keeps its keys) and the
    list sorted newest first. Amounts are exact reals. */
module Expenses {
  import opened Optional
  import Records
  import Text
  import Calendar

  datatype Category = Food | Transport | Books | Supplies | Entertainment | Other

  /** `date` is the expense's calendar day as a day number, the quantity
      `new Date(date).getTime()` orders the list by. */
  datatype Expense = Expense(id: string, title: string, amount: real, category: Category,
                             date: int, description: Option<string>)

  function ExpenseId(e: Expense): string {
    e.id
  }

  /** The expenses the page starts with. */
  const Seed: seq<Expense> := [
    Expense("1", "Lunch", 12.5, Food, Calendar.DayNumber(2024, 0, 15), None),
    Expense("2", "Bus Pass", 50.0, Transport, Calendar.DayNumber(2024, 0, 14), None),
    Expense("3", "Textbooks", 120.0, Books, Calendar.DayNumber(2024, 0, 10), None)
  ]

  /** `handleAddExpense`: when the title has visible text and the amount
      input is not empty, append one expense; otherwise leave the list
      alone. `amount` is what `parseFloat` read from `amountInput`; `newId`
      stands for `Date.now().toString()`. */
  function AddExpense(es: seq<Expense>, title: string, amountInput: string, amount: real,
                      category: Category, date: int, description: string, newId: string): (r: seq<Expense>)
    ensures !(Text.HasText(title) && amountInput != []) ==> r == es
    ensures Text.HasText(title) && amountInput != [] ==>
      |r| == |es| + 1 && r[..|es|] == es
      && r[|es|] == Expense(newId, title, amount, category, date, Some(description))
  {
    if Text.HasText(title) && amountInput != [] then
      es + [Expense(newId, title, amount, category, date, Some(description))]
    else es
  }

  /** `handleDeleteExpense`: drop every expense with id `id`. */
  function DeleteExpense(es: seq<Expense>, id: string): (r: seq<Expense>)
    ensures forall e :: e in r <==> e in es && e.id != id
    ensures |r| == |es| - Records.CountId(es, ExpenseId, id)
    ensures (forall i :: 0 <= i < |es| ==> es[i].id != id) ==> r == es
  {
    Records.RemoveById(es, ExpenseId, id)
  }

  /** Deleting works piecewise, so the surviving expenses keep their order. */
  lemma DeleteExpenseKeepsOrder(a: seq<Expense>, b: seq<Expense>, id: string)
    ensures DeleteExpense(a + b, id) == DeleteExpense(a, id) + DeleteExpense(b, id)
  {
    Records.RemoveByIdAppend(a, b, ExpenseId, id);
  }

  /** `totalExpenses`: the sum of all amounts, added up front to back; never
      negative when no amount is. */
  function Total(es: seq<Expense>): (t: real)
    ensures (forall i :: 0 <= i < |es| ==> es[i].amount >= 0.0) ==> t >= 0.0
  {
    if es == [] then 0.0 else Total(es[..|es| - 1]) + es[|es| - 1].amount
  }

  /** Adding an expense raises the total by its amount, and a rejected add
      leaves it alone. */
  lemma AddRaisesTotal(es: seq<Expense>, title: string, amountInput: string, amount: real,
                       category: Category, date: int, description: string, newId: string)
    ensures var r := AddExpense(es, title, amountInput, amount, category, date, description, newId);
      Total(r) == if Text.HasText(title) && amountInput != [] then Total(es) + amount else Total(es)
  {
    var r := AddExpense(es, title, amountInput, amount, category, date, description, newId);
    if Text.HasText(title) && amountInput != [] {
      assert r[..|r| - 1] == es;
      assert Total(r) == Total(es) + r[|es|].amount;
    }
  }

  /** The amounts spent in category `c`. */
  function SpentOn(es: seq<Expense>, c: Category): real {
    if es == [] then 0.0
    else SpentOn(es[..|es| - 1], c) + (if es[|es| - 1].category == c then es[|es| - 1].amount else 0.0)
  }

  /** Some expense is in category `c`. */
  predicate Occurs(es: seq<Expense>, c: Category) {
    exists k :: 0 <= k < |es| && es[k].category == c
  }

  /** `categoryTotals`, a JavaScript object: its keys in insertion order,
      and the value under each key. */
  datatype CategoryTotals = CategoryTotals(order: seq<Category>, totals: map<Category, real>) {
    /** The key order lists each key of the map exactly once. */
    predicate Valid() {
      && (forall i, j :: 0 <= i < j < |order| ==> order[i] != order[j])
      && (forall c :: c in order <==> c in totals)
    }
  }

  /** One step of the `reduce`: `acc[e.category] = (acc[e.category] || 0) +
      e.amount`. An existing key keeps its place; a new key goes last. */
  function Bump(acc: CategoryTotals, e: Expense): (r: CategoryTotals)
    ensures r.totals.Keys == acc.totals.Keys + {e.category}
    ensures r.totals[e.category] == (if e.category in acc.totals then acc.totals[e.category] else 0.0) + e.amount
    ensures forall c :: c in acc.totals && c != e.category ==> r.totals[c] == acc.totals[c]
    ensures e.category in acc.totals ==> r.order == acc.order
    ensures e.category !in acc.totals ==> r.order == acc.order + [e.category]
    ensures acc.Valid() ==> r.Valid()
  {
    var c := e.category;
    assert acc.Valid() && c !in acc.totals ==>
      forall i :: 0 <= i < |acc.order| ==> (acc.order + [c])[i] == acc.order[i];
    if c in acc.totals then CategoryTotals(acc.order, acc.totals[c := acc.totals[c] + e.amount])
    else CategoryTotals(acc.order + [c], acc.totals[c := e.amount])
  }

  /** Adding one expense at the end adds its category to the ones that
      occur. */
  lemma OccursSnoc(es: seq<Expense>, c: Category)
    requires es != []
    ensures Occurs(es, c) <==> Occurs(es[..|es| - 1], c) || es[|es| - 1].category == c
  {
    var init := es[..|es| - 1];
    assert forall k :: 0 <= k < |init| ==> init[k] == es[k];
  }

  /** `categoryTotals`: the `reduce` over the list, front to back. Its key
      order lists each key of the object exactly once. */
  function Totals(es: seq<Expense>): (r: CategoryTotals)
    ensures r.Valid()
  {
    if es == [] then CategoryTotals([], map[]) else Bump(Totals(es[..|es| - 1]), es[|es| - 1])
  }

  /** `categoryTotals` has a key for exactly the categories that occur. */
  lemma {:induction false} TotalsKeys(es: seq<Expense>)
    ensures forall c :: c in Totals(es).totals <==> Occurs(es, c)
  {
    if es != [] {
      TotalsKeys(es[..|es| - 1]);
      forall c ensures Occurs(es, c) <==> Occurs(es[..|es| - 1], c) || c == es[|es| - 1].category {
        OccursSnoc(es, c);
      }
    }
  }

  /** `categoryTotals` has a key for exactly the categories that occur, and
      each holds the sum spent on that category. */
  lemma {:induction false} TotalsKeysAndValues(es: seq<Expense>)
    ensures forall c :: c in Totals(es).totals <==> Occurs(es, c)
    ensures forall c :: c in Totals(es).totals ==> Totals(es).totals[c] == SpentOn(es, c)
  {
    if es != [] {
      var init := es[..|es| - 1];
      var e := es[|es| - 1];
      TotalsKeysAndValues(init);
      forall c ensures Occurs(es, c) <==> Occurs(init, c) || c == e.category {
        OccursSnoc(es, c);
      }
      if !Occurs(init, e.category) {
        SpentOnAbsent(init, e.category);
      }
    }
  }

  /** Nothing is spent on a category that does not occur. */
  lemma {:induction false} SpentOnAbsent(es: seq<Expense>, c: Category)
    requires !Occurs(es, c)
    ensures SpentOn(es, c) == 0.0
  {
    if es != [] {
      OccursSnoc(es, c);
      SpentOnAbsent(es[..|es| - 1], c);
    }
  }

  /** The sum of the values under the keys `order`. */
  function SumOver(order: seq<Category>, totals: map<Category, real>): real {
    if order == [] then 0.0
    else (if order[0] in totals then totals[order[0]] else 0.0) + SumOver(order[1..], totals)
  }

  /** Changing the value under a key that is not listed changes no sum. */
  lemma {:induction false} SumOverUnlisted(order: seq<Category>, totals: map<Category, real>, c: Category, v: real)
    requires forall i :: 0 <= i < |order| ==> order[i] in totals && order[i] != c
    ensures SumOver(order, totals[c := v]) == SumOver(order, totals)
  {
    if order != [] {
      SumOverUnlisted(order[1..], totals, c, v);
    }
  }

  /** Raising the value under a key listed once raises the sum by as much. */
  lemma {:induction false} SumOverRaise(order: seq<Category>, totals: map<Category, real>, c: Category, a: real)
    requires forall i :: 0 <= i < |order| ==> order[i] in totals
    requires forall i, j :: 0 <= i < j < |order| ==> order[i] != order[j]
    requires c in order
    ensures SumOver(order, totals[c := totals[c] + a]) == SumOver(order, totals) + a
  {
    if order[0] == c {
      SumOverUnlisted(order[1..], totals, c, totals[c] + a);
    } else {
      SumOverRaise(order[1..], totals, c, a);
    }
  }

  /** Adding a value under a new last key adds it to the sum. */
  lemma {:induction false} SumOverAppend(order: seq<Category>, totals: map<Category, real>, c: Category, v: real)
    requires forall i :: 0 <= i < |order| ==> order[i] in totals && order[i] != c
    ensures SumOver(order + [c], totals[c := v]) == SumOver(order, totals) + v
  {
    if order == [] {
      assert [c][1..] == [];
    } else {
      assert (order + [c])[1..] == order[1..] + [c];
      SumOverAppend(order[1..], totals, c, v);
    }
  }

  /** The category totals add up to the overall total. */
  lemma {:induction false} TotalsSumToTotal(es: seq<Expense>)
    ensures SumOver(Totals(es).order, Totals(es).totals) == Total(es)
  {
    if es != [] {
      var init := es[..|es| - 1];
      var e := es[|es| - 1];
      var prev := Totals(init);
      TotalsSumToTotal(init);
      BumpAddsAmount(Totals(init), e);
    }
  }

  /** One step of the `reduce` adds the expense's amount to the sum of the
      values. */
  lemma BumpAddsAmount(acc: CategoryTotals, e: Expense)
    requires acc.Valid()
    ensures SumOver(Bump(acc, e).order, Bump(acc, e).totals) == SumOver(acc.order, acc.totals) + e.amount
  {
    var c := e.category;
    if c in acc.totals {
      SumOverRaise(acc.order, acc.totals, c, e.amount);
    } else {
      SumOverAppend(acc.order, acc.totals, c, e.amount);
    }
  }

  /** The position of the first expense in category `c`, or `|es|` if
      there is none. */
  function FirstIndex(es: seq<Expense>, c: Category): (k: nat)
    ensures k <= |es|
    ensures k < |es| ==> es[k].category == c
    ensures forall j :: 0 <= j < k ==> es[j].category != c
    ensures k == |es| <==> !Occurs(es, c)
  {
    if es == [] then 0
    else
      var init := es[..|es| - 1];
      var k := FirstIndex(init, c);
      assert forall j :: 0 <= j < k ==> es[j].category != c by {
        forall j | 0 <= j < k ensures es[j].category != c {
          assert es[j] == init[j];
        }
      }
      if k < |init| then (assert es[k] == init[k]; k)
      else if es[|es| - 1].category == c then |es| - 1
      else |es|
  }

  /** Adding one expense at the end moves no category's first position, and
      a new category first occurs at the end. */
  lemma FirstIndexSnoc(es: seq<Expense>, c: Category)
    requires es != []
    ensures Occurs(es[..|es| - 1], c) ==> FirstIndex(es, c) == FirstIndex(es[..|es| - 1], c) < |es| - 1
    ensures !Occurs(es[..|es| - 1], c) && es[|es| - 1].category == c ==> FirstIndex(es, c) == |es| - 1
  {
  }

  /** The keys of `categoryTotals` come in the order their categories first
      occur in the list: of any two keys, the earlier one occurs first. */
  lemma {:induction false} TotalsFirstSeenOrder(es: seq<Expense>, i: int, j: int)
    requires 0 <= i < j < |Totals(es).order|
    ensures FirstIndex(es, Totals(es).order[i]) < FirstIndex(es, Totals(es).order[j])
  {
    var init := es[..|es| - 1];
    var e := es[|es| - 1];
    var prev := Totals(init).order;
    var o := Totals(es).order;
    TotalsKeys(init);
    assert o[i] == prev[i];
    FirstIndexSnoc(es, prev[i]);
    if j < |prev| {
      assert o[j] == prev[j];
      FirstIndexSnoc(es, prev[j]);
      TotalsFirstSeenOrder(init, i, j);
    } else {
      assert o[j] == e.category && e.category !in Totals(init).totals;
      FirstIndexSnoc(es, e.category);
    }
  }

  /** Newest first: dates never increase along the list. */
  predicate NewestFirst(es: seq<Expense>) {
    forall i, j :: 0 <= i < j < |es| ==> es[i].date >= es[j].date
  }

  /** Puts `e`, which came before every element of `sorted`, in front of the
      first element that is not newer than it. */
  function InsertByDate(e: Expense, sorted: seq<Expense>): (r: seq<Expense>)
    ensures multiset(r) == multiset(sorted) + multiset{e}
  {
    if sorted == [] then [e]
    else if sorted[0].date <= e.date then [e] + sorted
    else
      assert sorted == [sorted[0]] + sorted[1..];
      [sorted[0]] + InsertByDate(e, sorted[1..])
  }

  /** A list stays newest first when an element no older than its head is
      put in front. */
  lemma ConsNewestFirst(x: Expense, rest: seq<Expense>)
    requires NewestFirst(rest)
    requires forall y :: y in rest ==> y.date <= x.date
    ensures NewestFirst([x] + rest)
  {
    var r := [x] + rest;
    forall i, j | 0 <= i < j < |r| ensures r[i].date >= r[j].date {
      assert r[j] == rest[j - 1];
      if i > 0 {
        assert r[i] == rest[i - 1];
      }
    }
  }

  /** Inserting into a newest-first list keeps it newest first. */
  lemma {:induction false} InsertKeepsNewestFirst(e: Expense, sorted: seq<Expense>)
    requires NewestFirst(sorted)
    ensures NewestFirst(InsertByDate(e, sorted))
  {
    if sorted != [] {
      var s0 := sorted[0];
      var tail := sorted[1..];
      assert sorted == [s0] + tail;
      forall y | y in sorted ensures y.date <= s0.date {
        var k :| 0 <= k < |sorted| && sorted[k] == y;
      }
      if s0.date <= e.date {
        ConsNewestFirst(e, sorted);
      } else {
        var rest := InsertByDate(e, tail);
        InsertKeepsNewestFirst(e, tail);
        forall y | y in rest ensures y.date <= s0.date {
          assert y in multiset(rest);
          assert y == e || y in tail;
        }
        ConsNewestFirst(s0, rest);
      }
    }
  }

  /** `sortedExpenses`: a fresh copy of the list, newest first; the sort is
      stable, so expenses of one day keep their list order. */
  function SortByDate(es: seq<Expense>): (r: seq<Expense>)
    ensures multiset(r) == multiset(es)
    ensures NewestFirst(r)
  {
    if es == [] then []
    else
      var rest := SortByDate(es[1..]);
      assert es == [es[0]] + es[1..];
      InsertKeepsNewestFirst(es[0], rest);
      InsertByDate(es[0], rest)
  }

  /** The expenses of day `d`. */
  function OnDay(d: int): Expense -> bool {
    (e: Expense) => e.date == d
  }

  lemma {:induction false} InsertKeepsDayOrder(e: Expense, sorted: seq<Expense>, d: int)
    ensures Records.Filter(InsertByDate(e, sorted), OnDay(d)) == Records.Filter([e] + sorted, OnDay(d))
  {
    if sorted != [] && sorted[0].date > e.date {
      var s0 := sorted[0];
      var tail := sorted[1..];
      var f := OnDay(d);
      var ins := InsertByDate(e, tail);
      assert Records.Filter(InsertByDate(e, sorted), f) == Records.Filter([s0] + ([e] + tail), f) by {
        assert InsertByDate(e, sorted) == [s0] + ins;
        Records.FilterCons(s0, ins, f);
        InsertKeepsDayOrder(e, tail, d);
        Records.FilterCons(s0, [e] + tail, f);
      }
      // `s0` is strictly newer than `e`, so at most one of them is on day `d`.
      Records.FilterSwap(s0, e, tail, f);
      assert [s0] + tail == sorted;
    }
  }

  /** Sorting is stable: for every day, the expenses of that day appear in
      the sorted list in the same order as in the original list. */
  lemma {:induction false} SortKeepsDayOrder(es: seq<Expense>, d: int)
    ensures Records.Filter(SortByDate(es), OnDay(d)) == Records.Filter(es, OnDay(d))
  {
    if es != [] {
      SortKeepsDayOrder(es[1..], d);
      InsertKeepsDayOrder(es[0], SortByDate(es[1..]), d);
      Records.FilterAppend([es[0]], SortByDate(es[1..]), OnDay(d));
      Records.FilterAppend([es[0]], es[1..], OnDay(d));
      assert [es[0]] + es[1..] == es;
    }
  }
}

=== FILE: grades.dfy ===
/** The grade tracker: courses with a percentage grade, credit hours and a
    grade point; the grade-point and letter scales, the credit-weighted GPA
    and the average grade. Grade points and averages are exact reals. */
module Grades {
  import Records

  /** `gradePoint` is stored, not derived: it is set from the grade when a
      course is added, and the seed list carries its own values. */
  datatype Course = Course(id: string, name: string, grade: int, creditHours: int, gradePoint: real)

  function CourseId(c: Course): string {
    c.id
  }

  /** The courses the page starts with. The third stores 3.9 for a grade of
      88, which the scale below would map to 3.7. */
  const Seed: seq<Course> := [
    Course("1", "Mathematics", 92, 4, 4.0),
    Course("2", "Physics", 85, 3, 3.7),
    Course("3", "English Literature", 88, 3, 3.9)
  ]

  /** `getGradePoint`: 90 and up 4.0, 80 up 3.7, 70 up 3.3, 60 up 3.0, below
      60 0.0. */
  function GradePoint(grade: int): (r: real)
    ensures r == 4.0 || r == 3.7 || r == 3.3 || r == 3.0 || r == 0.0
    ensures 0.0 <= r <= 4.0
    ensures r == 4.0 <==> grade >= 90
    ensures r == 3.7 <==> 80 <= grade < 90
    ensures r == 3.3 <==> 70 <= grade < 80
    ensures r == 3.0 <==> 60 <= grade < 70
    ensures r == 0.0 <==> grade < 60
  {
    if grade >= 90 then 4.0
    else if grade >= 80 then 3.7
    else if grade >= 70 then 3.3
    else if grade >= 60 then 3.0
    else 0.0
  }

  /** A higher grade never earns fewer grade points. */
  lemma GradePointMonotone(g1: int, g2: int)
    requires g1 <= g2
    ensures GradePoint(g1) <= GradePoint(g2)
  {
  }

  /** The band edges of the scale. */
  lemma GradePointEdges()
    ensures GradePoint(89) == 3.7 && GradePoint(90) == 4.0
    ensures GradePoint(59) == 0.0 && GradePoint(60) == 3.0
  {
  }

  datatype Letter = A | B | C | D | F

  /** `getLetterGrade`: the same bands as the grade points, so the letter is
      the one belonging to the grade point. */
  function LetterGrade(grade: int): (r: Letter)
    ensures r == LetterOfPoint(GradePoint(grade))
  {
    if grade >= 90 then A
    else if grade >= 80 then B
    else if grade >= 70 then C
    else if grade >= 60 then D
    else F
  }

  /** The letter belonging to each grade point of the scale. */
  function LetterOfPoint(p: real): Letter {
    if p == 4.0 then A
    else if p == 3.7 then B
    else if p == 3.3 then C
    else if p == 3.0 then D
    else F
  }

  /** Letters and grade points share their thresholds: A exactly for 4.0
      and F exactly for 0.0. */
  lemma LetterMatchesPoint(grade: int)
    ensures LetterGrade(grade) == A <==> GradePoint(grade) == 4.0
    ensures LetterGrade(grade) == F <==> GradePoint(grade) == 0.0
  {
  }

  /** Sum of `gradePoint * creditHours`. */
  function TotalPoints(cs: seq<Course>): real {
    if cs == [] then 0.0
    else TotalPoints(cs[..|cs| - 1]) + Weighted(cs[|cs| - 1])
  }

  /** One course's grade points weighted by its credit hours. */
  function Weighted(c: Course): real {
    c.gradePoint * c.creditHours as real
  }

  /** Sum of `creditHours`. */
  function TotalCredits(cs: seq<Course>): int {
    if cs == [] then 0 else TotalCredits(cs[..|cs| - 1]) + cs[|cs| - 1].creditHours
  }

  /** `calculateGPA`: the credit-weighted mean grade point, and 0 for an
      empty list or when the credit hours do not add up to something
      positive. */
  function Gpa(cs: seq<Course>): (r: real)
    ensures |cs| == 0 ==> r == 0.0
    ensures TotalCredits(cs) <= 0 ==> r == 0.0
    ensures |cs| > 0 && TotalCredits(cs) > 0 ==> r * TotalCredits(cs) as real == TotalPoints(cs)
  {
    if |cs| == 0 then 0.0
    else
      var credits := TotalCredits(cs);
      if credits > 0 then TotalPoints(cs) / credits as real else 0.0
  }

  /** Grade points in [0, 4] and non-negative credit hours. */
  predicate WellFormed(cs: seq<Course>) {
    forall i :: 0 <= i < |cs| ==> 0.0 <= cs[i].gradePoint <= 4.0 && cs[i].creditHours >= 0
  }

  lemma {:induction false} TotalPointsBounds(cs: seq<Course>)
    requires WellFormed(cs)
    ensures 0.0 <= TotalPoints(cs) <= 4.0 * TotalCredits(cs) as real
    ensures TotalCredits(cs) >= 0
  {
    if cs != [] {
      var init := cs[..|cs| - 1];
      var c := cs[|cs| - 1];
      assert WellFormed(init) by {
        forall i | 0 <= i < |init| ensures 0.0 <= init[i].gradePoint <= 4.0 && init[i].creditHours >= 0 {
          assert init[i] == cs[i];
        }
      }
      TotalPointsBounds(init);
      WeightedBound(c);
      SumOfBounded(TotalPoints(init), TotalCredits(init) as real, Weighted(c), c.creditHours as real);
    }
  }

  lemma WeightedBound(c: Course)
    requires 0.0 <= c.gradePoint <= 4.0 && 0 <= c.creditHours
    ensures 0.0 <= Weighted(c) <= 4.0 * c.creditHours as real
  {
    var p := c.gradePoint;
    var w := c.creditHours as real;
    assert Weighted(c) == p * w;
    NonNegativeProduct(p, w);
    assert (4.0 - p) * w == 4.0 * w - p * w;
    NonNegativeProduct(4.0 - p, w);
  }

  /** A product of non-negative reals is non-negative. */
  lemma NonNegativeProduct(a: real, b: real)
    requires 0.0 <= a && 0.0 <= b
    ensures 0.0 <= a * b
  {
  }

  lemma SumOfBounded(p0: real, c0: real, pw: real, w: real)
    requires 0.0 <= p0 <= 4.0 * c0 && 0.0 <= pw <= 4.0 * w
    ensures 0.0 <= p0 + pw <= 4.0 * (c0 + w)
  {
  }

  /** A quotient `r = p / t` with `p` in [lo * t, hi * t] lies in [lo, hi]. */
  lemma QuotientBetween(r: real, t: real, p: real, lo: real, hi: real)
    requires t > 0.0 && r * t == p && lo * t <= p <= hi * t
    ensures lo <= r <= hi
  {
    assert (r - lo) * t == p - lo * t;
    assert (hi - r) * t == hi * t - p;
  }

  /** With grade points in [0, 4] and non-negative credit hours the GPA is
      in [0, 4]. */
  lemma GpaInRange(cs: seq<Course>)
    requires WellFormed(cs)
    ensures 0.0 <= Gpa(cs) <= 4.0
  {
    TotalPointsBounds(cs);
    if |cs| > 0 && TotalCredits(cs) > 0 {
      QuotientBetween(Gpa(cs), TotalCredits(cs) as real, TotalPoints(cs), 0.0, 4.0);
    }
  }

  /** When every course carries the same grade point `p` and there are
      credit hours, the GPA is `p`. */
  lemma {:induction false} GpaOfUniformPoints(cs: seq<Course>, p: real)
    requires forall i :: 0 <= i < |cs| ==> cs[i].gradePoint == p
    requires TotalCredits(cs) > 0
    ensures Gpa(cs) == p
  {
    UniformPoints(cs, p);
  }

  lemma {:induction false} UniformPoints(cs: seq<Course>, p: real)
    requires forall i :: 0 <= i < |cs| ==> cs[i].gradePoint == p
    ensures TotalPoints(cs) == p * TotalCredits(cs) as real
  {
    if cs != [] {
      var init := cs[..|cs| - 1];
      assert forall i :: 0 <= i < |init| ==> init[i].gradePoint == p by {
        forall i | 0 <= i < |init| ensures init[i].gradePoint == p {
          assert init[i] == cs[i];
        }
      }
      UniformPoints(init, p);
    }
  }

  /** Sum of the percentage grades. */
  function TotalGrade(cs: seq<Course>): int {
    if cs == [] then 0 else TotalGrade(cs[..|cs| - 1]) + cs[|cs| - 1].grade
  }

  /** The "Average Grade" card: the mean grade, 0 with no courses. */
  function AverageGrade(cs: seq<Course>): (r: real)
    ensures |cs| == 0 ==> r == 0.0
    ensures |cs| > 0 ==> r * |cs| as real == TotalGrade(cs) as real
  {
    if |cs| > 0 then TotalGrade(cs) as real / |cs| as real else 0.0
  }

  lemma {:induction false} TotalGradeBounds(cs: seq<Course>, lo: int, hi: int)
    requires forall i :: 0 <= i < |cs| ==> lo <= cs[i].grade <= hi
    ensures lo * |cs| <= TotalGrade(cs) <= hi * |cs|
  {
    if cs != [] {
      var init := cs[..|cs| - 1];
      assert forall i :: 0 <= i < |init| ==> lo <= init[i].grade <= hi by {
        forall i | 0 <= i < |init| ensures lo <= init[i].grade <= hi {
          assert init[i] == cs[i];
        }
      }
      TotalGradeBounds(init, lo, hi);
      var n := |init|;
      assert lo * (n + 1) == lo * n + lo;
      assert hi * (n + 1) == hi * n + hi;
      assert TotalGrade(cs) == TotalGrade(init) + cs[|cs| - 1].grade;
    }
  }

  /** The average of grades that all lie in [lo, hi] lies in [lo, hi]. */
  lemma AverageGradeInRange(cs: seq<Course>, lo: int, hi: int)
    requires |cs| > 0
    requires forall i :: 0 <= i < |cs| ==> lo <= cs[i].grade <= hi
    ensures lo as real <= AverageGrade(cs) <= hi as real
  {
    var n := |cs|;
    var total := TotalGrade(cs);
    TotalGradeBounds(cs, lo, hi);
    CastProduct(lo, n);
    CastProduct(hi, n);
    var avg := AverageGrade(cs);
    var t := n as real;
    assert avg * t == total as real;
    assert lo as real * t <= total as real <= hi as real * t;
    QuotientBetween(avg, t, total as real, lo as real, hi as real);
  }

  lemma CastProduct(a: int, b: int)
    ensures (a * b) as real == a as real * b as real
  {
  }

  /** `handleAddCourse`: with a name and non-empty grade and credit-hour
      inputs, append one course whose grade point comes from the scale;
      otherwise leave the list alone. `grade` and `creditHours` are what
      `parseInt` read from the two inputs; `newId` stands for
      `Date.now().toString()`. */
  function AddCourse(cs: seq<Course>, name: string, gradeInput: string, creditInput: string,
                     grade: int, creditHours: int, newId: string): (r: seq<Course>)
    ensures name == [] || gradeInput == [] || creditInput == [] ==> r == cs
    ensures name != [] && gradeInput != [] && creditInput != [] ==>
      |r| == |cs| + 1 && r[..|cs|] == cs
      && r[|cs|].id == newId && r[|cs|].name == name && r[|cs|].grade == grade
      && r[|cs|].creditHours == creditHours && r[|cs|].gradePoint == GradePoint(grade)
  {
    if name == [] || gradeInput == [] || creditInput == [] then cs
    else cs + [Course(newId, name, grade, creditHours, GradePoint(grade))]
  }

  /** Every course's grade point is the one its grade earns. */
  predicate PointsFollowGrades(cs: seq<Course>) {
    forall i :: 0 <= i < |cs| ==> cs[i].gradePoint == GradePoint(cs[i].grade)
  }

  /** Adding a course keeps grade points in step with grades, though the
      seed list is not in step to begin with. */
  lemma AddKeepsPointsFollowingGrades(cs: seq<Course>, name: string, gradeInput: string,
                                      creditInput: string, grade: int, creditHours: int, newId: string)
    requires PointsFollowGrades(cs)
    ensures PointsFollowGrades(AddCourse(cs, name, gradeInput, creditInput, grade, creditHours, newId))
    ensures !PointsFollowGrades(Seed)
  {
    assert Seed[2].gradePoint != GradePoint(Seed[2].grade);
  }

  /** `handleDeleteCourse`: drop every course with id `id`. */
  function DeleteCourse(cs: seq<Course>, id: string): (r: seq<Course>)
    ensures forall c :: c in r <==> c in cs && c.id != id
    ensures |r| == |cs| - Records.CountId(cs, CourseId, id)
    ensures (forall i :: 0 <= i < |cs| ==> cs[i].id != id) ==> r == cs
  {
    Records.RemoveById(cs, CourseId, id)
  }

  /** Deleting works piecewise, so the surviving courses keep their order. */
  lemma DeleteCourseKeepsOrder(a: seq<Course>, b: seq<Course>, id: string)
    ensures DeleteCourse(a + b, id) == DeleteCourse(a, id) + DeleteCourse(b, id)
  {
    Records.RemoveByIdAppend(a, b, CourseId, id);
  }
}

=== FILE: notes.dfy ===
/** The sticky-notes board: notes with text, a colour and a position; adding
    a note with a random colour and position, deleting, editing, moving, and
    the drag handler that feeds `moveNote`. Positions are exact reals. */
module Notes {
  import Records

  datatype Note = Note(id: string, content: string, color: string, x: real, y: real, created: int)

  function NoteId(n: Note): string {
    n.id
  }

  /** The five colour classes a new note can get. */
  const Palette: seq<string> := [
    "bg-yellow-100 border-yellow-300",
    "bg-pink-100 border-pink-300",
    "bg-blue-100 border-blue-300",
    "bg-green-100 border-green-300",
    "bg-purple-100 border-purple-300"
  ]

  /** The board the page starts with: the notes saved under `scholar_notes`,
      or no notes at all when nothing usable was saved (this page has no
      seed list). */
  function Load(stored: Records.Stored<Note>): (r: seq<Note>)
    ensures stored.Parsed? ==> r == stored.items
    ensures !stored.Parsed? ==> r == []
  {
    Records.Restore(stored, [])
  }

  /** What `Math.random()` returns: a real in [0, 1). */
  predicate IsDraw(r: real) {
    0.0 <= r < 1.0
  }

  /** `Math.floor(draw * colors.length)`: always a valid palette index. */
  function ColorIndex(draw: real): (k: int)
    requires IsDraw(draw)
    ensures 0 <= k < |Palette|
  {
    (draw * |Palette| as real).Floor
  }

  /** `addNote`: append one empty note with a palette colour and a position
      in [0, 300) on both axes. `newId` and `created` stand for the two
      `Date.now()` reads and the draws for the three `Math.random()` calls. */
  function AddNote(notes: seq<Note>, newId: string, created: int,
                   colorDraw: real, xDraw: real, yDraw: real): (r: seq<Note>)
    requires IsDraw(colorDraw) && IsDraw(xDraw) && IsDraw(yDraw)
    ensures |r| == |notes| + 1 && r[..|notes|] == notes
    ensures var n := r[|notes|];
      && n.id == newId && n.content == [] && n.created == created
      && n.color in Palette
      && 0.0 <= n.x < 300.0 && 0.0 <= n.y < 300.0
  {
    notes + [Note(newId, "", Palette[ColorIndex(colorDraw)], xDraw * 300.0, yDraw * 300.0, created)]
  }

  /** `deleteNote`: drop every note with id `id`. */
  function DeleteNote(notes: seq<Note>, id: string): (r: seq<Note>)
    ensures forall n :: n in r <==> n in notes && n.id != id
    ensures |r| == |notes| - Records.CountId(notes, NoteId, id)
    ensures (forall i :: 0 <= i < |notes| ==> notes[i].id != id) ==> r == notes
  {
    Records.RemoveById(notes, NoteId, id)
  }

  /** Deleting works piecewise, so the surviving notes keep their order. */
  lemma DeleteNoteKeepsOrder(a: seq<Note>, b: seq<Note>, id: string)
    ensures DeleteNote(a + b, id) == DeleteNote(a, id) + DeleteNote(b, id)
  {
    Records.RemoveByIdAppend(a, b, NoteId, id);
  }

  /** `updateNote`: replace the text of the notes with id `id`; ids,
      colours, positions and creation times stay, and so do other notes. */
  function UpdateNote(notes: seq<Note>, id: string, content: string): (r: seq<Note>)
    ensures |r| == |notes|
    ensures forall i :: 0 <= i < |notes| ==>
      && r[i].id == notes[i].id && r[i].color == notes[i].color
      && r[i].x == notes[i].x && r[i].y == notes[i].y && r[i].created == notes[i].created
      && r[i].content == (if notes[i].id == id then content else notes[i].content)
    ensures (forall i :: 0 <= i < |notes| ==> notes[i].id != id) ==> r == notes
  {
    Records.MapById(notes, NoteId, id, (n: Note) => n.(content := content))
  }

  /** `moveNote`: put the notes with id `id` at (`x`, `y`); everything else
      stays. */
  function MoveNote(notes: seq<Note>, id: string, x: real, y: real): (r: seq<Note>)
    ensures |r| == |notes|
    ensures forall i :: 0 <= i < |notes| ==>
      && r[i].id == notes[i].id && r[i].content == notes[i].content
      && r[i].color == notes[i].color && r[i].created == notes[i].created
      && r[i].x == (if notes[i].id == id then x else notes[i].x)
      && r[i].y == (if notes[i].id == id then y else notes[i].y)
    ensures (forall i :: 0 <= i < |notes| ==> notes[i].id != id) ==> r == notes
  {
    Records.MapById(notes, NoteId, id, (n: Note) => n.(x := x, y := y))
  }

  datatype Point = Point(x: real, y: real)

  /** `handleMouseDown`: the pointer's offset from the note's corner. */
  function GrabOffset(note: Note, clientX: real, clientY: real): Point {
    Point(clientX - note.x, clientY - note.y)
  }

  function Max0(v: real): real {
    if v < 0.0 then 0.0 else v
  }

  /** `handleMouseMove`: where the note goes for a pointer at (`clientX`,
      `clientY`), kept off the negative side of either axis. */
  function DragTarget(offset: Point, clientX: real, clientY: real): (p: Point)
    ensures p.x >= 0.0 && p.y >= 0.0
    ensures clientX - offset.x >= 0.0 ==> p.x == clientX - offset.x
    ensures clientX - offset.x < 0.0 ==> p.x == 0.0
    ensures clientY - offset.y >= 0.0 ==> p.y == clientY - offset.y
    ensures clientY - offset.y < 0.0 ==> p.y == 0.0
  {
    Point(Max0(clientX - offset.x), Max0(clientY - offset.y))
  }

  /** A drag moves the note by exactly the pointer's travel, clamped at 0;
      a pointer back where it was grabbed puts an on-board note back where
      it was. */
  lemma DragFollowsPointer(note: Note, downX: real, downY: real, moveX: real, moveY: real)
    ensures DragTarget(GrabOffset(note, downX, downY), moveX, moveY)
      == Point(Max0(note.x + (moveX - downX)), Max0(note.y + (moveY - downY)))
    ensures note.x >= 0.0 && note.y >= 0.0 ==>
      DragTarget(GrabOffset(note, downX, downY), downX, downY) == Point(note.x, note.y)
  {
  }

  /** One card's drag state: `isDragging` together with the grab offset. */
  datatype Drag = Idle | Dragging(offset: Point)

  /** `handleMouseDown`: a press on the card's text area or delete button
      leaves the state alone; any other press starts a drag from the note's
      current position. */
  function MouseDown(state: Drag, note: Note, onControl: bool, clientX: real, clientY: real): (r: Drag)
    ensures onControl ==> r == state
    ensures !onControl ==> r.Dragging? && note.x + r.offset.x == clientX && note.y + r.offset.y == clientY
  {
    if onControl then state else Dragging(GrabOffset(note, clientX, clientY))
  }

  /** `handleMouseMove` followed by `moveNote`: outside a drag the board is
      unchanged; during one, the dragged note goes to the clamped target and
      keeps its id, text, colour and creation time, and other notes stay. */
  function MouseMove(state: Drag, notes: seq<Note>, id: string, clientX: real, clientY: real): (r: seq<Note>)
    ensures state.Idle? ==> r == notes
    ensures |r| == |notes|
    ensures forall i :: 0 <= i < |notes| && notes[i].id != id ==> r[i] == notes[i]
    ensures state.Dragging? ==> forall i :: 0 <= i < |notes| && notes[i].id == id ==>
      r[i].x >= 0.0 && r[i].y >= 0.0
      && r[i] == notes[i].(x := DragTarget(state.offset, clientX, clientY).x,
                           y := DragTarget(state.offset, clientX, clientY).y)
  {
    match state
    case Idle => notes
    case Dragging(offset) =>
      var p := DragTarget(offset, clientX, clientY);
      MoveNote(notes, id, p.x, p.y)
  }

  /** `handleMouseUp` (also bound to mouse-leave): the drag ends. */
  function MouseUp(state: Drag): Drag {
    Idle
  }

  /** One drag session on note `i`: a press away from the controls, a move,
      a release and a later move. The first move puts the note at the
      pointer's travel from where it was, clamped at 0, and leaves every
      other field and every other note alone; once released, moving the
      pointer leaves the board as the first move left it. */
  lemma DragSession(notes: seq<Note>, i: int, downX: real, downY: real,
                    moveX: real, moveY: real, laterX: real, laterY: real)
    requires 0 <= i < |notes|
    ensures var n := notes[i];
      var pressed := MouseDown(Idle, n, false, downX, downY);
      var moved := MouseMove(pressed, notes, n.id, moveX, moveY);
      && moved[i] == n.(x := Max0(n.x + (moveX - downX)), y := Max0(n.y + (moveY - downY)))
      && (forall j :: 0 <= j < |notes| && notes[j].id != n.id ==> moved[j] == notes[j])
      && MouseMove(MouseUp(pressed), moved, n.id, laterX, laterY) == moved
  {
    DragFollowsPointer(notes[i], downX, downY, moveX, moveY);
  }

  /** No note sits at a negative coordinate. */
  predicate OnBoard(notes: seq<Note>) {
    forall i :: 0 <= i < |notes| ==> notes[i].x >= 0.0 && notes[i].y >= 0.0
  }

  /** Adding notes and dragging them keeps every note at non-negative
      coordinates. */
  lemma StaysOnBoard(notes: seq<Note>, id: string, clientX: real, clientY: real,
                     newId: string, created: int, colorDraw: real, xDraw: real, yDraw: real)
    requires OnBoard(notes)
    requires IsDraw(colorDraw) && IsDraw(xDraw) && IsDraw(yDraw)
    ensures forall state :: OnBoard(MouseMove(state, notes, id, clientX, clientY))
    ensures OnBoard(AddNote(notes, newId, created, colorDraw, xDraw, yDraw))
  {
    var r := AddNote(notes, newId, created, colorDraw, xDraw, yDraw);
    assert forall i :: 0 <= i < |notes| ==> r[i] == notes[i];
  }
}

=== FILE: optional.dfy ===
/** The `Option` type used wherever the application works with a value that
    may be absent (`null` in the page code, or a parse that can fail). */
module Optional {

  datatype Option<+T> = None | Some(value: T)
}

=== FILE: records.dfy ===
/** The record-list operations every page shares: each page keeps an ordered
    list of records and changes it only by appending, by filtering out the
    records with a given id, or by mapping a change over the records with a
    given id. Ids are strings; nothing here assumes they are unique. */
module Records {

  /** `xs.filter(keep)`: the elements satisfying `keep`, in their order. */
  function Filter<T(!new)>(xs: seq<T>, keep: T -> bool): (r: seq<T>)
    ensures |r| <= |xs|
    ensures forall i :: 0 <= i < |r| ==> keep(r[i])
    ensures forall x :: x in r <==> x in xs && keep(x)
    ensures (forall i :: 0 <= i < |xs| ==> keep(xs[i])) ==> r == xs
  {
    if xs == [] then []
    else (if keep(xs[0]) then [xs[0]] else []) + Filter(xs[1..], keep)
  }

  /** Filtering distributes over concatenation; with the one-element case of
      the definition this pins down that the kept elements stay in order. */
  lemma {:induction false} FilterAppend<T(!new)>(a: seq<T>, b: seq<T>, keep: T -> bool)
    ensures Filter(a + b, keep) == Filter(a, keep) + Filter(b, keep)
  {
    if a != [] {
      assert (a + b)[1..] == a[1..] + b;
      FilterAppend(a[1..], b, keep);
    } else {
      assert a + b == b;
    }
  }

  /** Filtering a list with a known first element. */
  lemma FilterCons<T(!new)>(x: T, xs: seq<T>, keep: T -> bool)
    ensures Filter([x] + xs, keep) == (if keep(x) then [x] else []) + Filter(xs, keep)
  {
    assert ([x] + xs)[1..] == xs;
  }

  /** Two neighbours that are not both kept can trade places without
      changing what the filter keeps. */
  lemma FilterSwap<T(!new)>(a: T, b: T, xs: seq<T>, keep: T -> bool)
    requires !(keep(a) && keep(b))
    ensures Filter([a] + ([b] + xs), keep) == Filter([b] + ([a] + xs), keep)
  {
    FilterCons(a, [b] + xs, keep);
    FilterCons(b, [a] + xs, keep);
    if keep(a) {
      FilterCons(b, xs, keep);
    } else {
      FilterCons(a, xs, keep);
    }
  }

  /** Filtering by a predicate and by its negation splits the list: the two
      results together are exactly as long as the input. */
  lemma {:induction false} FilterComplement<T(!new)>(xs: seq<T>, p: T -> bool, q: T -> bool)
    requires forall x :: q(x) == !p(x)
    ensures |Filter(xs, p)| + |Filter(xs, q)| == |xs|
  {
    if xs != [] {
      FilterComplement(xs[1..], p, q);
    }
  }

  /** The number of records in `xs` whose id is `id`. */
  function CountId<T>(xs: seq<T>, idOf: T -> string, id: string): nat {
    if xs == [] then 0
    else (if idOf(xs[0]) == id then 1 else 0) + CountId(xs[1..], idOf, id)
  }

  /** `xs.filter(x => x.id !== id)`: delete-by-id. */
  function RemoveById<T(!new)>(xs: seq<T>, idOf: T -> string, id: string): (r: seq<T>)
    ensures forall x :: x in r <==> x in xs && idOf(x) != id
    ensures |r| == |xs| - CountId(xs, idOf, id)
    ensures (forall i :: 0 <= i < |xs| ==> idOf(xs[i]) != id) ==> r == xs
  {
    if xs == [] then []
    else (if idOf(xs[0]) == id then [] else [xs[0]]) + RemoveById(xs[1..], idOf, id)
  }

  /** Delete-by-id distributes over concatenation, so the survivors keep
      their relative order. */
  lemma {:induction false} RemoveByIdAppend<T(!new)>(a: seq<T>, b: seq<T>, idOf: T -> string, id: string)
    ensures RemoveById(a + b, idOf, id) == RemoveById(a, idOf, id) + RemoveById(b, idOf, id)
  {
    if a != [] {
      assert (a + b)[1..] == a[1..] + b;
      RemoveByIdAppend(a[1..], b, idOf, id);
    } else {
      assert a + b == b;
    }
  }

  /** Deleting the id of a record just appended with a fresh id gives back
      the list as it was before the append. */
  lemma RemoveAppended<T(!new)>(xs: seq<T>, x: T, idOf: T -> string)
    requires forall i :: 0 <= i < |xs| ==> idOf(xs[i]) != idOf(x)
    ensures RemoveById(xs + [x], idOf, idOf(x)) == xs
  {
    RemoveByIdAppend(xs, [x], idOf, idOf(x));
    assert RemoveById([x], idOf, idOf(x)) == [];
  }

  /** `xs.map(x => x.id === id ? change(x) : x)`: update-by-id. */
  function MapById<T>(xs: seq<T>, idOf: T -> string, id: string, change: T -> T): (r: seq<T>)
    ensures |r| == |xs|
    ensures forall i :: 0 <= i < |xs| ==> r[i] == if idOf(xs[i]) == id then change(xs[i]) else xs[i]
    ensures (forall i :: 0 <= i < |xs| ==> idOf(xs[i]) != id) ==> r == xs
  {
    seq(|xs|, i requires 0 <= i < |xs| => if idOf(xs[i]) == id then change(xs[i]) else xs[i])
  }

  /** What a page finds under its storage key when it starts: nothing (no
      entry or an empty string), text that does not parse, or a parsed list. */
  datatype Stored<T> = Missing | Unreadable | Parsed(items: seq<T>)

  /** The list a page starts with: the parsed list when there is one,
      otherwise the page's `fallback`. */
  function Restore<T>(stored: Stored<T>, fallback: seq<T>): (r: seq<T>)
    ensures stored.Parsed? ==> r == stored.items
    ensures !stored.Parsed? ==> r == fallback
  {
    match stored
    case Parsed(items) => items
    case _ => fallback
  }
}

=== FILE: schedule.dfy ===
/** The schedule page: a list of dated entries (classes and events), the
    month grid that shows how many entries fall on each day, and the list of
    entries for the selected day. Entries are matched to days by their
    `YYYY-MM-DD` key. */
module Schedule {
  import opened Optional
  import Records
  import Calendar

  datatype ScheduleItem = ScheduleItem(id: string, date: string, title: string, time: string, location: string)

  function ItemId(s: ScheduleItem): string {
    s.id
  }

  /** The two entries the page falls back to. */
  const Seed: seq<ScheduleItem> := [
    ScheduleItem("1", "2024-01-15", "Mathematics", "10:00 AM", "Room 301"),
    ScheduleItem("2", "2024-01-15", "Physics", "1:00 PM", "Lab B")
  ]

  /** The list the page starts with: what was saved under `schedules`, or
      the seed entries when nothing usable was saved. A saved empty list
      stays empty. */
  function Load(stored: Records.Stored<ScheduleItem>): (r: seq<ScheduleItem>)
    ensures stored.Parsed? ==> r == stored.items
    ensures !stored.Parsed? ==> r == Seed && |r| == 2
  {
    Records.Restore(stored, Seed)
  }

  /** JavaScript truthiness of a `string | null`. */
  predicate IsSet(s: Option<string>) {
    s.Some? && s.value != []
  }

  /** `handleAddSchedule`: with a selected day and a non-empty title and time
      (none of them trimmed), append one entry for that day; otherwise
      leave the list alone. `newId` stands for `Date.now().toString()`. */
  function AddSchedule(items: seq<ScheduleItem>, selectedDate: Option<string>,
                       title: string, time: string, location: string, newId: string): (r: seq<ScheduleItem>)
    ensures IsSet(selectedDate) && title != [] && time != [] ==>
      |r| == |items| + 1 && r[..|items|] == items
      && r[|items|] == ScheduleItem(newId, selectedDate.value, title, time, location)
    ensures !(IsSet(selectedDate) && title != [] && time != []) ==> r == items
  {
    if IsSet(selectedDate) && title != [] && time != [] then
      items + [ScheduleItem(newId, selectedDate.value, title, time, location)]
    else items
  }

  /** `handleDeleteSchedule`: drop every entry with id `id`. */
  function DeleteSchedule(items: seq<ScheduleItem>, id: string): (r: seq<ScheduleItem>)
    ensures forall s :: s in r <==> s in items && s.id != id
    ensures |r| == |items| - Records.CountId(items, ItemId, id)
    ensures (forall i :: 0 <= i < |items| ==> items[i].id != id) ==> r == items
  {
    Records.RemoveById(items, ItemId, id)
  }

  /** Deleting works piecewise, so the surviving entries keep their order. */
  lemma DeleteKeepsOrder(a: seq<ScheduleItem>, b: seq<ScheduleItem>, id: string)
    ensures DeleteSchedule(a + b, id) == DeleteSchedule(a, id) + DeleteSchedule(b, id)
  {
    Records.RemoveByIdAppend(a, b, ItemId, id);
  }

  /** Deleting an entry that was just added under a fresh id undoes the add. */
  lemma DeleteUndoesAdd(items: seq<ScheduleItem>, date: string, title: string, time: string,
                        location: string, newId: string)
    requires date != [] && title != [] && time != []
    requires forall i :: 0 <= i < |items| ==> items[i].id != newId
    ensures DeleteSchedule(AddSchedule(items, Some(date), title, time, location, newId), newId) == items
  {
    Records.RemoveAppended(items, ScheduleItem(newId, date, title, time, location), ItemId);
  }

  /** The test `(s) => s.date === key`. */
  function DatedOn(key: string): ScheduleItem -> bool {
    (s: ScheduleItem) => s.date == key
  }

  /** `schedules.filter((s) => s.date === key)`. */
  function OnDate(items: seq<ScheduleItem>, key: string): seq<ScheduleItem> {
    Records.Filter(items, DatedOn(key))
  }

  /** `schedules.some((s) => s.date === key)`. */
  predicate HasSchedulesOn(items: seq<ScheduleItem>, key: string) {
    exists i :: 0 <= i < |items| && items[i].date == key
  }

  /** `selectedDateSchedules`: the entries of the selected day, in list
      order, or none when no day is selected. */
  function SelectedDateSchedules(items: seq<ScheduleItem>, selectedDate: Option<string>): (r: seq<ScheduleItem>)
    ensures !IsSet(selectedDate) ==> r == []
    ensures IsSet(selectedDate) ==> forall s :: s in r <==> s in items && s.date == selectedDate.value
  {
    if IsSet(selectedDate) then OnDate(items, selectedDate.value) else []
  }

  /** The selected day's list is built entry by entry: an entry appears once
      for every time it is stored on that day, and in list order. */
  lemma SelectionKeepsOrder(a: seq<ScheduleItem>, b: seq<ScheduleItem>, s: ScheduleItem, key: string)
    requires key != []
    ensures SelectedDateSchedules([], Some(key)) == []
    ensures SelectedDateSchedules([s], Some(key)) == (if s.date == key then [s] else [])
    ensures SelectedDateSchedules(a + b, Some(key))
      == SelectedDateSchedules(a, Some(key)) + SelectedDateSchedules(b, Some(key))
  {
    Records.FilterCons(s, [], DatedOn(key));
    assert [s] + [] == [s];
    Records.FilterAppend(a, b, DatedOn(key));
  }

  /** How a day cell is drawn: the selected day wins over a day with
      entries. */
  datatype Look = Chosen | Busy | Plain

  /** One square of the month grid: a placeholder before day 1, or a day with
      its key, its look and its entry-count badge (shown only when there are
      entries). */
  datatype Cell = Blank | Day(day: int, key: string, look: Look, badge: Option<nat>)

  /** The cell for day `day` of the displayed month: a badge exactly when
      some entry carries the cell's key, holding the number of such entries;
      the selected look exactly when the cell's key is selected; the busy
      look exactly when it is not selected but has entries. */
  function DayCell(view: Calendar.YearMonth, items: seq<ScheduleItem>, selectedDate: Option<string>, day: int): (c: Cell)
    ensures c.Day? && c.day == day && c.key == Calendar.FormatDate(view.year, view.month, day)
    ensures c.badge.Some? <==> |OnDate(items, c.key)| > 0
    ensures c.badge.Some? ==> c.badge.value == |OnDate(items, c.key)|
    ensures c.look == Chosen <==> selectedDate == Some(c.key)
    ensures c.look == Busy <==> selectedDate != Some(c.key) && |OnDate(items, c.key)| > 0
  {
    var key := Calendar.FormatDate(view.year, view.month, day);
    SomeIffCount(items, key);
    var has := HasSchedulesOn(items, key);
    Day(day, key,
        if selectedDate == Some(key) then Chosen else if has then Busy else Plain,
        if has then Some(|OnDate(items, key)|) else None)
  }

  /** The calendar body: `firstDay` placeholders, then the days 1..N in
      order. */
  function MonthGrid(view: Calendar.YearMonth, items: seq<ScheduleItem>, selectedDate: Option<string>): (g: seq<Cell>)
    requires view.Valid()
    ensures |g| == Calendar.FirstWeekday(view) + Calendar.MonthLength(view)
    ensures forall i :: 0 <= i < Calendar.FirstWeekday(view) ==> g[i] == Blank
    ensures forall i :: Calendar.FirstWeekday(view) <= i < |g| ==>
      g[i] == DayCell(view, items, selectedDate, i - Calendar.FirstWeekday(view) + 1)
  {
    Layout(view, items, selectedDate, Calendar.FirstWeekday(view), Calendar.MonthLength(view))
  }

  /** The calendar body as the page draws it: `firstDay` and `daysInMonth`
      come from the written `getFirstDayOfMonth` and `getDaysInMonth`, so
      they are right outside years 0..99. */
  function MonthGridAsWritten(view: Calendar.YearMonth, items: seq<ScheduleItem>, selectedDate: Option<string>): (g: seq<Cell>)
    requires view.Valid()
    ensures |g| == Calendar.FirstWeekdayAsWritten(view) + Calendar.MonthLengthAsWritten(view)
    ensures forall i :: 0 <= i < Calendar.FirstWeekdayAsWritten(view) ==> g[i] == Blank
    ensures forall i :: Calendar.FirstWeekdayAsWritten(view) <= i < |g| ==>
      g[i] == DayCell(view, items, selectedDate, i - Calendar.FirstWeekdayAsWritten(view) + 1)
    ensures !(0 <= view.year <= 99) ==> g == MonthGrid(view, items, selectedDate)
  {
    Layout(view, items, selectedDate, Calendar.FirstWeekdayAsWritten(view), Calendar.MonthLengthAsWritten(view))
  }

  /** December 99, the one two-digit-year month the page can reach, is drawn
      with three leading blanks (1 December 1999 was a Wednesday) where its
      first day, a Tuesday, needs two. */
  lemma DecemberNinetyNineGrid(items: seq<ScheduleItem>, selectedDate: Option<string>)
    ensures var v := Calendar.YearMonth(99, 11);
      && MonthGridAsWritten(v, items, selectedDate)[2] == Blank
      && MonthGrid(v, items, selectedDate)[2] == DayCell(v, items, selectedDate, 1)
  {
    Calendar.TwoDigitYearJump();
  }

  /** `first` placeholders followed by the cells of days 1..`length`. */
  function Layout(view: Calendar.YearMonth, items: seq<ScheduleItem>, selectedDate: Option<string>,
                  first: nat, length: nat): (g: seq<Cell>)
    ensures |g| == first + length
    ensures forall i :: 0 <= i < first ==> g[i] == Blank
    ensures forall i :: first <= i < |g| ==> g[i] == DayCell(view, items, selectedDate, i - first + 1)
  {
    seq(first + length, i => Slot(view, items, selectedDate, first, i))
  }

  function Slot(view: Calendar.YearMonth, items: seq<ScheduleItem>, selectedDate: Option<string>,
                first: nat, i: int): Cell {
    if i < first then Blank else DayCell(view, items, selectedDate, i - first + 1)
  }

  /** `some` and a non-zero `filter(...).length` agree. */
  lemma SomeIffCount(items: seq<ScheduleItem>, key: string)
    ensures HasSchedulesOn(items, key) <==> |OnDate(items, key)| > 0
  {
    var r := OnDate(items, key);
    if HasSchedulesOn(items, key) {
      var i :| 0 <= i < |items| && items[i].date == key;
      assert items[i] in r;
    }
    if |r| > 0 {
      assert r[0] in items;
    }
  }

  /** In a month of a four-digit year distinct days get distinct keys, so
      no entry is counted on two cells of the grid. */
  lemma DayKeysDistinct(view: Calendar.YearMonth, items: seq<ScheduleItem>,
                        selectedDate: Option<string>, d1: int, d2: int)
    requires view.Valid() && 1000 <= view.year <= 9999
    requires 1 <= d1 <= Calendar.MonthLength(view) && 1 <= d2 <= Calendar.MonthLength(view) && d1 != d2
    ensures DayCell(view, items, selectedDate, d1).key != DayCell(view, items, selectedDate, d2).key
  {
    var k1 := DayCell(view, items, selectedDate, d1).key;
    var k2 := DayCell(view, items, selectedDate, d2).key;
    if k1 == k2 {
      Calendar.FormatDateInjective(view.year, view.month, d1, view.year, view.month, d2);
    }
  }
}

=== FILE: text.dfy ===
/** The string helpers the pages rely on: JavaScript's `String.prototype.trim`
    (used to reject blank titles), `String(n)` for integers and
    `padStart(2, '0')` (used to build calendar keys), together with the
    decimal reading of digit strings that undoes them. */
module Text {

  /** ECMAScript WhiteSpace and LineTerminator code points: the characters
      `trim` removes from both ends of a string. */
  predicate IsWhitespace(c: char) {
    || c == '\t' || c == '\n' || c == '\U{000B}' || c == '\U{000C}' || c == '\r'
    || c == ' ' || c == '\U{00A0}' || c == '\U{1680}'
    || ('\U{2000}' <= c <= '\U{200A}')
    || c == '\U{2028}' || c == '\U{2029}' || c == '\U{202F}' || c == '\U{205F}'
    || c == '\U{3000}' || c == '\U{FEFF}'
  }

  /** `s` with its leading whitespace removed. */
  function TrimStart(s: string): (r: string)
    ensures |r| <= |s| && r == s[|s| - |r|..]
    ensures forall i :: 0 <= i < |s| - |r| ==> IsWhitespace(s[i])
    ensures r == [] || !IsWhitespace(r[0])
  {
    if s == [] || !IsWhitespace(s[0]) then s else TrimStart(s[1..])
  }

  /** `s` with its trailing whitespace removed. */
  function TrimEnd(s: string): (r: string)
    ensures |r| <= |s| && r == s[..|r|]
    ensures forall i :: |r| <= i < |s| ==> IsWhitespace(s[i])
    ensures r == [] || !IsWhitespace(r[|r| - 1])
  {
    if s == [] || !IsWhitespace(s[|s| - 1]) then s else TrimEnd(s[..|s| - 1])
  }

  /** JavaScript's `s.trim()`: a stretch of `s` that starts and ends with
      visible characters, and is empty exactly when `s` is all whitespace. */
  function Trim(s: string): (r: string)
    ensures |r| <= |s|
    ensures r != [] <==> exists i :: 0 <= i < |s| && !IsWhitespace(s[i])
    ensures exists k :: OccursAt(r, s, k)
  {
    TrimNonEmptyIff(s);
    TrimShape(s);
    TrimEnd(TrimStart(s))
  }

  /** Trimming both ends keeps a contiguous stretch of `s`. */
  lemma TrimShape(s: string)
    ensures OccursAt(TrimEnd(TrimStart(s)), s, |s| - |TrimStart(s)|)
  {
    var t := TrimStart(s);
    var r := TrimEnd(t);
    PrefixOfSuffix(s, t, r);
  }

  /** A prefix of a suffix of `s` occurs in `s` where the suffix starts. */
  lemma PrefixOfSuffix(s: string, t: string, r: string)
    requires |t| <= |s| && t == s[|s| - |t|..]
    requires |r| <= |t| && r == t[..|r|]
    ensures OccursAt(r, s, |s| - |t|)
  {
    assert s[|s| - |t|..|s| - |t| + |r|] == s[|s| - |t|..][..|r|];
  }

  /** `r` appears in `s` starting at position `k`. */
  predicate OccursAt(r: string, s: string, k: int) {
    0 <= k <= |s| - |r| && r == s[k..k + |r|]
  }

  /** The truthiness of `s.trim()`: the string holds some visible text. */
  predicate HasText(s: string): (b: bool)
    ensures b <==> exists i :: 0 <= i < |s| && !IsWhitespace(s[i])
  {
    Trim(s) != []
  }

  /** Trimming both ends yields the empty string exactly when every
      character of the input is whitespace. */
  lemma TrimNonEmptyIff(s: string)
    ensures TrimEnd(TrimStart(s)) != [] <==> exists i :: 0 <= i < |s| && !IsWhitespace(s[i])
  {
    var t := TrimStart(s);
    if TrimEnd(t) != [] {
      var u := TrimEnd(t);
      assert u[0] == t[0] == s[|s| - |t|];
    }
    if exists i :: 0 <= i < |s| && !IsWhitespace(s[i]) {
      var i :| 0 <= i < |s| && !IsWhitespace(s[i]);
      assert |s| - |t| <= i;
      assert !IsWhitespace(t[0]);
      assert |TrimEnd(t)| >= 1;
    }
  }

  predicate IsDigit(c: char) {
    '0' <= c <= '9'
  }

  predicate AllDigits(s: string) {
    forall i :: 0 <= i < |s| ==> IsDigit(s[i])
  }

  /** The decimal digit character for `n`. */
  function DigitChar(n: nat): (c: char)
    requires n < 10
    ensures IsDigit(c) && c as int - '0' as int == n
  {
    (n + '0' as int) as char
  }

  /** The numeric value of a decimal digit character. */
  function DigitValue(c: char): (n: nat)
    requires IsDigit(c)
    ensures n < 10 && DigitChar(n) == c
  {
    c as int - '0' as int
  }

  /** `String(n)` for a non-negative integer: its shortest decimal form. */
  function NatToString(n: nat): (r: string)
    ensures 1 <= |r| && AllDigits(r)
    ensures r[0] == '0' ==> n == 0
  {
    if n < 10 then [DigitChar(n)] else NatToString(n / 10) + [DigitChar(n % 10)]
  }

  /** `String(n)` for an integer, with a leading minus sign when negative. */
  function IntToString(n: int): (r: string)
    ensures n >= 0 ==> AllDigits(r) && DigitsValue(r) == n
    ensures n < 0 ==> |r| >= 2 && r[0] == '-' && AllDigits(r[1..]) && DigitsValue(r[1..]) == -n
  {
    DigitsValueOfNatToString(if n < 0 then -n else n);
    if n < 0 then "-" + NatToString(-n) else NatToString(n)
  }

  /** The value of a string of decimal digits, most significant first. */
  function DigitsValue(s: string): nat
    requires AllDigits(s)
  {
    if s == [] then 0 else DigitsValue(s[..|s| - 1]) * 10 + DigitValue(s[|s| - 1])
  }

  /** Reading back the decimal form of `n` gives `n`. */
  lemma {:induction false} DigitsValueOfNatToString(n: nat)
    ensures DigitsValue(NatToString(n)) == n
  {
    if n >= 10 {
      var s := NatToString(n);
      assert s[..|s| - 1] == NatToString(n / 10);
      DigitsValueOfNatToString(n / 10);
    }
  }

  /** How many digits `String(n)` has, for the ranges the calendar keys use. */
  lemma NatToStringLength(n: nat)
    ensures n < 10 ==> |NatToString(n)| == 1
    ensures 10 <= n < 100 ==> |NatToString(n)| == 2
    ensures 1000 <= n < 10000 ==> |NatToString(n)| == 4
  {
    if 1000 <= n < 10000 {
      assert |NatToString(n / 10)| == 3 by {
        assert |NatToString(n / 100)| == 2;
      }
    }
  }

  /** JavaScript's `s.padStart(width, fill)` for a single fill character:
      `s` prefixed with copies of `fill` up to `width` characters. */
  function PadStart(s: string, width: nat, fill: char): (r: string)
    ensures |r| == if |s| < width then width else |s|
    ensures r[|r| - |s|..] == s
    ensures forall i :: 0 <= i < |r| - |s| ==> r[i] == fill
  {
    if |s| < width then seq(width - |s|, _ => fill) + s else s
  }

  /** For 0..99, `String(n).padStart(2, '0')` is two digits reading as `n`. */
  lemma PadStart2Digits(n: nat)
    requires n < 100
    ensures var p := PadStart(NatToString(n), 2, '0');
      |p| == 2 && AllDigits(p) && DigitsValue(p) == n
  {
    NatToStringLength(n);
    DigitsValueOfNatToString(n);
    var s := NatToString(n);
    var p := PadStart(s, 2, '0');
    if n < 10 {
      assert p == ['0'] + s;
      assert p[..1] == ['0'];
    } else {
      assert p == s;
    }
  }
}

=== FILE: todos.dfy ===
/** The to-do page: tasks with a completion flag, a priority and a due date;
    adding, toggling and deleting by id, the status filter and the three
    counters. */
module Todos {
  import Records
  import Text

  datatype Priority = Low | Medium | High

  datatype Task = Task(id: string, title: string, completed: bool, priority: Priority, dueDate: string)

  function TaskId(t: Task): string {
    t.id
  }

  /** The tasks the page starts with. */
  const Seed: seq<Task> := [
    Task("1", "Complete Math Assignment", false, High, "2024-01-20"),
    Task("2", "Read Chapter 5 - Physics", true, Medium, "2024-01-18"),
    Task("3", "Prepare Presentation", false, High, "2024-01-22"),
    Task("4", "Submit Essay", true, High, "2024-01-15")
  ]

  /** `handleAddTask`: when the title has visible text, append one open task
      with the title as typed (untrimmed), the chosen priority and due
      date; otherwise leave the list alone. `newId` stands for
      `Date.now().toString()`. */
  function AddTask(ts: seq<Task>, title: string, priority: Priority, dueDate: string, newId: string): (r: seq<Task>)
    ensures !Text.HasText(title) ==> r == ts
    ensures Text.HasText(title) ==>
      |r| == |ts| + 1 && r[..|ts|] == ts && r[|ts|] == Task(newId, title, false, priority, dueDate)
  {
    if Text.HasText(title) then ts + [Task(newId, title, false, priority, dueDate)] else ts
  }

  function Flip(t: Task): Task {
    t.(completed := !t.completed)
  }

  /** `handleToggleTask`: flip `completed` on the tasks with id `id`; every
      other field and every other task stays as it was. */
  function ToggleTask(ts: seq<Task>, id: string): (r: seq<Task>)
    ensures |r| == |ts|
    ensures forall i :: 0 <= i < |ts| ==>
      && r[i].id == ts[i].id && r[i].title == ts[i].title
      && r[i].priority == ts[i].priority && r[i].dueDate == ts[i].dueDate
      && (r[i].completed <==> (ts[i].completed != (ts[i].id == id)))
    ensures (forall i :: 0 <= i < |ts| ==> ts[i].id != id) ==> r == ts
  {
    Records.MapById(ts, TaskId, id, Flip)
  }

  /** Toggling the same id twice restores the list. */
  lemma ToggleTwice(ts: seq<Task>, id: string)
    ensures ToggleTask(ToggleTask(ts, id), id) == ts
  {
    var r := ToggleTask(ToggleTask(ts, id), id);
    assert forall i :: 0 <= i < |ts| ==> r[i] == ts[i];
  }

  /** `handleDeleteTask`: drop every task with id `id`. */
  function DeleteTask(ts: seq<Task>, id: string): (r: seq<Task>)
    ensures forall t :: t in r <==> t in ts && t.id != id
    ensures |r| == |ts| - Records.CountId(ts, TaskId, id)
    ensures (forall i :: 0 <= i < |ts| ==> ts[i].id != id) ==> r == ts
  {
    Records.RemoveById(ts, TaskId, id)
  }

  /** Deleting works piecewise, so the surviving tasks keep their order. */
  lemma DeleteTaskKeepsOrder(a: seq<Task>, b: seq<Task>, id: string)
    ensures DeleteTask(a + b, id) == DeleteTask(a, id) + DeleteTask(b, id)
  {
    Records.RemoveByIdAppend(a, b, TaskId, id);
  }

  /** Deleting a task just added under a fresh id undoes the add. */
  lemma DeleteUndoesAdd(ts: seq<Task>, title: string, priority: Priority, dueDate: string, newId: string)
    requires Text.HasText(title)
    requires forall i :: 0 <= i < |ts| ==> ts[i].id != newId
    ensures DeleteTask(AddTask(ts, title, priority, dueDate, newId), newId) == ts
  {
    Records.RemoveAppended(ts, Task(newId, title, false, priority, dueDate), TaskId);
  }

  datatype Status = All | Active | Completed

  function IsDone(t: Task): bool {
    t.completed
  }

  function IsOpen(t: Task): bool {
    !t.completed
  }

  /** `filteredTasks`: everything, the open tasks or the completed ones, in
      list order. */
  function FilteredTasks(ts: seq<Task>, status: Status): (r: seq<Task>)
    ensures status == All ==> r == ts
    ensures status == Active ==> forall t :: t in r <==> t in ts && !t.completed
    ensures status == Completed ==> forall t :: t in r <==> t in ts && t.completed
  {
    match status
    case All => ts
    case Active => Records.Filter(ts, IsOpen)
    case Completed => Records.Filter(ts, IsDone)
  }

  /** The open and the completed views split the list between them, each
      keeping list order. */
  lemma FilterViewsSplit(ts: seq<Task>, a: seq<Task>, b: seq<Task>)
    ensures |FilteredTasks(ts, Active)| + |FilteredTasks(ts, Completed)| == |ts|
    ensures FilteredTasks(a + b, Active) == FilteredTasks(a, Active) + FilteredTasks(b, Active)
    ensures FilteredTasks(a + b, Completed) == FilteredTasks(a, Completed) + FilteredTasks(b, Completed)
  {
    Records.FilterComplement(ts, IsOpen, IsDone);
    Records.FilterAppend(a, b, IsOpen);
    Records.FilterAppend(a, b, IsDone);
  }

  /** `completedCount`. */
  function CompletedCount(ts: seq<Task>): (n: nat)
    ensures n <= |ts|
  {
    |Records.Filter(ts, IsDone)|
  }

  /** The "Remaining" card, `totalCount - completedCount`: never negative,
      and exactly the number of open tasks. */
  function Remaining(ts: seq<Task>): (n: int)
    ensures 0 <= n <= |ts|
    ensures n == |FilteredTasks(ts, Active)|
  {
    Records.FilterComplement(ts, IsOpen, IsDone);
    |ts| - CompletedCount(ts)
  }
}
